=== FILE: README.md ===
# mitsuba-blender exporter core, modelled in Dafny

This project models three pieces of the Mitsuba exporter add-on for Blender.

- **The output nodes of a shader node graph** (`mtsblend/nodes/node_output.py`).
  - The material output resolves a material into parameters:
    - a BSDF reference `<name>-bsdf`;
    - an embedded subsurface dictionary;
    - an interior medium, embedded when it is already a reference and otherwise emitted as `<name>-medium` and referenced;
    - an embedded emitter.
  - It appends the standalone records to the scene document, and it registers the result in the by-name cache of exported materials.
  - `update` lets Subsurface and Interior Medium disable each other.
  - The lamp and world outputs pass on their single upstream dictionary.
- **The scene export pass** (`mtsblend/export/scene.py`, `SceneExporter.export`).
  - It acquires a manager, creating and owning one only when none is active.
  - It joins the output path, normalises the directory, calls `set_filename` for the file backend only, and clears the material cache.
  - It then emits, in order: the integrator, the world, every other camera in object order, the active camera last, the visible lamps in object order, and the geometry.
  - It configures the renderer and resets an owned manager.
  - Any exception is reported and then either re-raised or answered with CANCELLED.
  - `report` formats the log line.
- **The world and medium property helpers** (`mtsblend/properties/world.py`).
  - `dict_merge` is a right-biased union.
  - `texture_append_visibility` adds visibility conditions.
  - `WorldMediumParameter` builds the name-store and search property pair.
  - `mitsuba_medium_data.get_paramset` selects the preset, the sigmaA/sigmaS coefficients or the sigmaT/albedo coefficients, and always appends the scale last.

Modules:

- `Wrappers`: `Option` and `Result`.
- `Document`: parameter values, records, the scene document (`seq<Params>`), the exported-materials cache (`map<string, Params>`), and references and id declarations.
- `NodeOutput` and `NodeOutputProperties`: the output nodes and the properties relating their calls.
- `SceneExport` and `SceneExportProperties`:
  - The export pass works over an abstract set of collaborators (integrator, world, camera, lamp and geometry exporters, and the visibility test).
  - The pass is observed as a trace of events: `set_filename`, cache clear, `data_add` tagged with its requester, `configure`, and reset.
- `World` and `WorldProperties`: the world and medium helpers.

Everything is a pure function. The scene document and the material cache are threaded through the calls as values, so statements about two calls (idempotence, isolation, independence from unread inputs) are ordinary lemmas.

Behaviour of the code as written, kept in the model:

- **A `None` scene.** The handler reads `scene.mitsuba_testing` on `None`. The call therefore ends with an AttributeError, whatever the re-raise flag, and not with the "Scene is not valid" exception it raised.
- **An empty output directory.** `directory[-1]` fails only after a manager may have been created and set active. That manager stays active and is not reset.
- **An upstream BSDF or medium dictionary with its own `id`.** That `id` overrides `<name>-bsdf` or `<name>-medium` on the appended record, while the material still refers to the generated id. `NodeOutputProperties.ForeignBsdfIdDangles` exhibits the dangling reference. The no-forward-reference and at-most-once properties are therefore stated for upstream dictionaries that become appended records and carry no `id` of their own. A reference medium is embedded, not appended, and may carry any `id`.
- **A directory ending in a backslash.** It is kept by normalisation but is not a separator for the POSIX path join. `SceneExportProperties.JoinAgreesWithNormalised` states both cases.

## Model

| member | source | states |
|---|---|---|
| NodeOutput.MaterialUpdate | mtsblend/nodes/node_output.py:52-55 | with both sockets present, Interior Medium is enabled iff Subsurface is unlinked and Subsurface is enabled iff Interior Medium is unlinked; links and every other socket are untouched; with either socket absent nothing changes |
| NodeOutputProperties.UpdateIdempotent | mtsblend/nodes/node_output.py:52-55 | running the socket-enabling rule again changes nothing |
| NodeOutputProperties.UpdateMutualExclusion | mtsblend/nodes/node_output.py:52-55 | after the rule, Subsurface and Interior Medium are never both linked and enabled |
| NodeOutput.BsdfRecord | mtsblend/nodes/node_output.py:77-78 | the BSDF record holds every upstream entry unchanged plus `id`, which is `<name>-bsdf` unless the upstream dictionary brings its own |
| NodeOutput.MediumRecord | mtsblend/nodes/node_output.py:93-94 | the medium parameters hold every upstream entry unchanged plus `id`, defaulting to `<name>-medium` |
| NodeOutput.BsdfStage | mtsblend/nodes/node_output.py:74-81 | a missing Bsdf socket or a linked node without a BSDF capability is an error with nothing appended; unlinked appends nothing; linked appends exactly the BSDF record and sets `bsdf` to a reference to `<name>-bsdf` |
| NodeOutput.SubsurfaceStage | mtsblend/nodes/node_output.py:84-87 | never appends; a linked subsurface dictionary is embedded unchanged under `subsurface`; the error cases are a missing socket or a missing capability |
| NodeOutput.InteriorStage | mtsblend/nodes/node_output.py:90-101 | skipped when Subsurface is linked; a medium whose `type` is `ref` is embedded and appends nothing; any other medium is appended and referenced as `<name>-medium`; it fails exactly when the socket is missing, the capability is missing, or the parameters lack `type` |
| NodeOutput.EmitterStage | mtsblend/nodes/node_output.py:104-107 | never appends; a linked emitter dictionary is embedded unchanged under `emitter`; the error cases are a missing socket or a missing capability |
| NodeOutput.MaterialOutputDict | mtsblend/nodes/node_output.py:65-111 | a cached name returns the cached parameters with document and cache unchanged; otherwise the document only grows, by at most two records; an error leaves the cache alone; success registers the result under the name; under `Ok` each of `bsdf`, `subsurface`, `emitter` is present iff its socket is linked, `interior` iff Interior Medium is linked and Subsurface is not, and no other key appears |
| NodeOutputProperties.ResolutionOutcome | mtsblend/nodes/node_output.py:71-107 | a material not yet exported resolves iff `Resolves` holds: the four read sockets exist, each linked Bsdf, Subsurface and Emitter node has its capability, and a medium read while Subsurface is unlinked has its capability and a `type`; otherwise the error is that of the first failing socket in the order Bsdf, Subsurface, Interior Medium, Emitter (`ResolutionError`), so a missing socket is the KeyError naming it |
| NodeOutputProperties.EmbeddedEntriesUnchanged | mtsblend/nodes/node_output.py:84-107 | in a successful fresh resolution, a linked `subsurface` or `emitter` entry is the upstream node's dictionary, unchanged |
| NodeOutputProperties.AppendedRecords | mtsblend/nodes/node_output.py:71-107 | a successful fresh resolution appends exactly the BSDF record (if Bsdf is linked) and then the medium record (if the medium is emitted), and the material's references name `<name>-bsdf` and `<name>-medium` |
| NodeOutputProperties.ReferencesDeclared | mtsblend/nodes/node_output.py:76-101 | no forward reference: when the appended records carry no upstream `id`, the `bsdf` reference names `<name>-bsdf` and the reference to an emitted medium names `<name>-medium`, and each is declared by a record of the returned document |
| NodeOutputProperties.ReferenceMediumUnconstrained | mtsblend/nodes/node_output.py:92-97 | a reference medium is never emitted, so the no-foreign-id hypothesis says nothing about its `id`: it reduces to the condition on the BSDF dictionary alone |
| NodeOutputProperties.ReferenceMediumEmbedded | mtsblend/nodes/node_output.py:90-97 | a reference medium is embedded under `interior` with its own entries unchanged, its own `id` kept if it has one and `<name>-medium` otherwise, and no medium record is appended |
| NodeOutputProperties.ReadSocketsDetermine | mtsblend/nodes/node_output.py:74-107 | two socket maps that agree on Bsdf, Subsurface, Interior Medium and Emitter give the same resolution |
| NodeOutputProperties.ExteriorMediumIgnored | mtsblend/nodes/node_output.py:57-111 | relinking or removing Exterior Medium leaves the resolution unchanged |
| NodeOutputProperties.ResolutionIdempotent | mtsblend/nodes/node_output.py:68-111 | after a successful resolution, resolving the same name again, whatever the graph now says, returns the same parameters and appends nothing |
| NodeOutputProperties.ResolveAll | mtsblend/nodes/node_output.py:65-111 | a run of resolutions sharing one document and cache only extends the document and never drops a cached name |
| NodeOutputProperties.AtMostOnce | mtsblend/nodes/node_output.py:68-111 | across any run of successful resolutions whose appended records carry no upstream `id` (a reference medium may carry any), starting from a de-duplicated state, no `<name>-bsdf` or `<name>-medium` id is declared twice, and none is declared for an uncached name |
| NodeOutputProperties.FreshTransactionUnique | mtsblend/export/scene.py:107 | the base case of `AtMostOnce` for an empty document: with the cache just cleared it is de-duplicated |
| NodeOutputProperties.PriorRecordsUnique | mtsblend/export/scene.py:107-127 | the base case of `AtMostOnce` for the document an export has built before the geometry: with the cache cleared it is de-duplicated iff none of its records declares a `<name>-bsdf` or `<name>-medium` id |
| NodeOutputProperties.ForeignBsdfIdDangles | mtsblend/nodes/node_output.py:77-81 | an upstream BSDF with its own `id` yields a `bsdf` reference to `m-bsdf` that no record of the document declares |
| NodeOutput.SingleSocketOutput | mtsblend/nodes/node_output.py:132-137 | a missing socket is an error; an unlinked socket gives `{}`; a linked one gives the upstream capability's dictionary unchanged |
| NodeOutput.LampOutputDict | mtsblend/nodes/node_output.py:129-137 | `{}` when Lamp is unlinked, the lamp node's dictionary when linked, an error exactly when the socket or the capability is missing |
| NodeOutput.WorldOutputDict | mtsblend/nodes/node_output.py:155-163 | `{}` when Environment is unlinked, the environment node's dictionary when linked, an error exactly when the socket or the capability is missing |
| NodeOutputProperties.SingleSocketReadsOnlyItsSocket | mtsblend/nodes/node_output.py:132-137 | two socket maps that agree on whether the socket exists and on its link give the same output |
| NodeOutputProperties.LampOutputReadsOnlyLamp | mtsblend/nodes/node_output.py:129-137 | the lamp output depends only on the Lamp socket's presence and link |
| NodeOutputProperties.WorldOutputReadsOnlyEnvironment | mtsblend/nodes/node_output.py:155-163 | the world output depends only on the Environment socket's presence and link |
| SceneExport.NormaliseDirectory | mtsblend/export/scene.py:95-96 | the result ends in `/` or `\`; a directory already ending in one is kept; any other gets `/` appended |
| SceneExport.JoinPath | mtsblend/export/scene.py:90-93 | an absolute file name replaces the directory; otherwise the result starts with the directory and ends with the file name |
| SceneExport.Upper | mtsblend/export/scene.py:67 | same length, each character upper-cased, so no lower-case letter remains |
| SceneExport.FormatReport | mtsblend/export/scene.py:66-67 | the line is the joined upper-cased severities, then `: `, then the message |
| SceneExport.JoinUpper | mtsblend/export/scene.py:67 | the joined severities are empty iff there are none, or a single empty one |
| SceneExportProperties.JoinUpperAppend | mtsblend/export/scene.py:67 | joining two non-empty groups of severities puts exactly one `|` between the two joins |
| SceneExport.ErrorText | mtsblend/export/scene.py:137-138 | the text of the error as `%s` renders it: the invalid-scene message ends with the file name, an attribute error quotes the attribute, a collaborator's message is kept, and the empty directory gives `string index out of range` |
| SceneExport.AbortReport | mtsblend/export/scene.py:138 | an ERROR report whose message is `Export aborted: ` followed by the error's text |
| SceneExportProperties.AbortLine | mtsblend/export/scene.py:137-138 | the abort report is logged as `ERROR: Export aborted: ` and the error's text |
| SceneExport.OtherCameras | mtsblend/export/scene.py:115 | exactly the objects of type CAMERA whose name differs from the active camera's |
| SceneExport.VisibleLamps | mtsblend/export/scene.py:121 | exactly the objects that are visible and of type LAMP |
| SceneExport.EmitCameras | mtsblend/export/scene.py:116-117 | only camera records, for a prefix of the cameras in order; all of them unless a camera's export raised, and then the first that raised is the one after the prefix; it succeeds iff every camera exports, and then the trace is each camera's own record in order (`CameraTrace`); the failure is the message of the first camera that raises (`CameraError`) |
| SceneExport.EmitLamps | mtsblend/export/scene.py:122-123 | only lamp records; it succeeds iff no lamp export raises, and then the trace is each lamp's records lamp after lamp (`LampTrace`); the failure is the message of the first lamp that raises (`LampError`) |
| SceneExport.EmitGeometry | mtsblend/export/scene.py:126-129 | the cache is the geometry exporter's, started from the cleared cache; success iff the geometry export succeeds; the trace is exactly the geometry exporter's records, followed by `configure` on success; a raising geometry export fails with its own message |
| SceneExport.EmitLights | mtsblend/export/scene.py:121-129 | success requires every visible lamp's export to succeed and ends as the geometry stage does; the failure is the first raising visible lamp's message, or else the geometry stage's failure |
| SceneExport.EmitActiveCamera | mtsblend/export/scene.py:118-129 | success requires the active camera's export to succeed and ends as the geometry stage does; a raising active camera fails with its own message, otherwise the failure is the lights stage's |
| SceneExport.EmitCameraStage | mtsblend/export/scene.py:115-129 | a scene without an active camera fails before any record, reading `name` on None when a camera object exists and `data` otherwise; with an active camera the failure is the first raising other camera's message, or else the active-camera stage's failure |
| SceneExport.EmitScene | mtsblend/export/scene.py:109-129 | an integrator that raises fails before any record; otherwise the trace opens with the integrator's record and then the world's records; success needs the integrator and the world to succeed; a raising world fails with its own message, otherwise the failure is the camera stage's |
| SceneExport.SceneFailure | mtsblend/export/scene.py:109-129 | the body fails with exactly `FirstError`: the error of the first collaborator, in call order, that raises, or the AttributeError of the missing active camera; there is none iff `Succeeds` |
| SceneExport.PathSetup | mtsblend/export/scene.py:100-107 | it ends with the cache clear, and starts with `set_filename` iff the backend is FILE |
| SceneExport.Transaction | mtsblend/export/scene.py:90-129 | an empty directory fails before any event with properties and cache untouched; otherwise the directory is normalised, nothing else of the properties changes, and the trace is the path set-up followed by the scene |
| SceneExport.GeometryTrace | mtsblend/export/scene.py:126-129 | the geometry stage emits only geometry records and `configure`, in that order |
| SceneExport.LightsTrace | mtsblend/export/scene.py:121-129 | lamp records come before geometry; on success the lamp records are those of the visible lamps and `configure` is last |
| SceneExport.ActiveCameraTrace | mtsblend/export/scene.py:118-129 | on success the only camera record is the active camera's, and it comes before every lamp record |
| SceneExport.CameraStageTrace | mtsblend/export/scene.py:115-129 | on success the camera records are the other cameras in object order and then the active camera |
| SceneExport.SceneOrder | mtsblend/export/scene.py:109-129 | integrator, world, cameras, lamps, geometry, `configure` in that order; on success every camera, every visible lamp and the geometry appear and `configure` is last |
| SceneExport.SceneTrace | mtsblend/export/scene.py:109-129 | the order of `SceneOrder`; the body succeeds iff no collaborator raises (`Succeeds`), and then its trace is exactly `SuccessTrace`: the integrator's record, the world's records, each other camera's record, the active camera's record, each visible lamp's records, the geometry records, `configure` |
| SceneExport.LightsSuccess | mtsblend/export/scene.py:121-129 | the lamp and geometry stage succeeds iff every visible lamp and the geometry export, and then its trace is the visible lamps' records, the geometry records and `configure` |
| SceneExport.CameraStageSuccess | mtsblend/export/scene.py:115-129 | the camera stage succeeds iff an active camera exists, every other camera and the active one export and the lights stage succeeds; then its trace is the other cameras' records, the active camera's record and the lights stage |
| SceneExport.SceneSuccess | mtsblend/export/scene.py:109-129 | the body succeeds iff `Succeeds` holds, and then its trace equals the directly defined `SuccessTrace` |
| SceneExport.PathSetupTrace | mtsblend/export/scene.py:100-107 | `set_filename` (for FILE only) comes before the cache clear, and no record is added |
| SceneExport.TransactionTrace | mtsblend/export/scene.py:90-129 | the body's trace is in the required order and holds no reset; it succeeds iff the directory is non-empty and no collaborator raises, and then the trace is exactly the path set-up followed by `SuccessTrace` |
| SceneExport.Conclude | mtsblend/export/scene.py:77-143 | a manager is created and owned iff none was active; FINISHED iff the body succeeded; the reset is appended iff FINISHED and owned; an error is re-raised iff the re-raise flag is set and is otherwise CANCELLED; the last report is ERROR iff not FINISHED; the reports are the context line, then `Export finished` on success or the abort report of the body's error |
| SceneExport.Export | mtsblend/export/scene.py:69-143 | a None scene raises with no manager, event or cache change; a manager is created iff the scene exists and none was active; reset happens iff FINISHED and owned; re-raise follows the flag; an empty directory fails with no event; over an existing scene the reports are the context line, then `Export finished` or the abort report of the transaction's error (the IndexError for an empty directory) |
| SceneExportProperties.ExportEvents | mtsblend/export/scene.py:131-135 | the call's trace is the body's trace plus at most one reset, present iff the call owns the manager and succeeded |
| SceneExportProperties.ExportOrdered | mtsblend/export/scene.py:100-132 | the whole trace never goes back: set_filename, cache clear, integrator, world, cameras, lamps, geometry, configure, reset |
| SceneExportProperties.ExportFinishedTrace | mtsblend/export/scene.py:114-135 | on FINISHED the active camera exists, the camera records are every other camera in object order then the active one, the lamp records are the visible lamps' in object order, and `configure` is last but for the reset; the whole trace is the path set-up, `SuccessTrace`, and the reset when the call owns the manager |
| SceneExportProperties.ExportFinishesExactly | mtsblend/export/scene.py:69-143 | the call ends FINISHED iff the scene exists, the output directory is non-empty and no collaborator raises |
| SceneExportProperties.ExportEmptyDirectory | mtsblend/export/scene.py:95 | an empty directory aborts with no event, the cache and the properties unchanged |
| SceneExportProperties.CacheClearedBeforeRecords | mtsblend/export/scene.py:107-109 | every record added is preceded by the cache clear |
| SceneExportProperties.GeometryStartsFromClearedCache | mtsblend/export/scene.py:107-127 | on FINISHED the final cache is the geometry exporter's result from an empty cache |
| SceneExportProperties.CacheIsolation | mtsblend/export/scene.py:107 | with a non-empty directory the outcome does not depend on the cache an earlier export left behind |
| SceneExportProperties.FilenameOnlyForFileBackend | mtsblend/export/scene.py:90-105 | `set_filename` occurs only for FILE, only first, with the path joined from the directory as given; on FINISHED with FILE it occurs |
| SceneExportProperties.DirectoryNormalised | mtsblend/export/scene.py:95-96 | after the pass the directory ends in a separator, extends the given one by at most one character, and file name and backend are unchanged |
| SceneExportProperties.NormaliseIdempotent | mtsblend/export/scene.py:95-96 | normalising a normalised directory changes nothing |
| SceneExportProperties.JoinAgreesWithNormalised | mtsblend/export/scene.py:90-96 | for a relative file name the joined path equals the normalised directory plus the name, except when the directory ends in a backslash |
| SceneExportProperties.OtherCamerasAppend | mtsblend/export/scene.py:115 | camera selection keeps object order: the selection of a concatenation is the concatenation of the selections |
| SceneExportProperties.VisibleLampsAppend | mtsblend/export/scene.py:121 | lamp selection keeps object order in the same way |
| SceneExportProperties.LampOutputAppend | mtsblend/export/scene.py:122-123 | the lamp records of two lists of lamps are the first list's records followed by the second's |
| SceneExportProperties.UpperIdempotent | mtsblend/export/scene.py:67 | upper-casing twice is upper-casing once |
| SceneExportProperties.UpperKeepsUpperCase | mtsblend/export/scene.py:67 | a severity already without lower-case letters is printed as given |
| SceneExportProperties.JoinUpperHasNoLowerCase | mtsblend/export/scene.py:67 | the severity part of a line contains no lower-case letter |
| SceneExportProperties.FinishedReportLine | mtsblend/export/scene.py:77-134 | a pass that ends FINISHED logs exactly two lines: `INFO: Creating Mitsuba context`, then `INFO: Export finished` |
| SceneExportProperties.AbortedReportLine | mtsblend/export/scene.py:77-138 | a pass over an existing scene that does not finish logs `INFO: Creating Mitsuba context`, then `ERROR: Export aborted: ` and the text of the error that ended the body; with a non-empty directory that error is `FirstError` |
| SceneExportProperties.ExportFailsWithFirstError | mtsblend/export/scene.py:109-141 | over an existing scene and a non-empty directory, the pass fails iff `FirstError` names an error, and then re-raises exactly that error when the re-raise flag is set and answers CANCELLED otherwise |
| SceneExportProperties.EmptyDirectoryReportLine | mtsblend/export/scene.py:95-138 | an empty output directory logs `ERROR: Export aborted: string index out of range` |
| SceneExportProperties.NoneSceneReportLine | mtsblend/export/scene.py:74-138 | a None scene logs only `ERROR: Export aborted: Scene is not valid for export to ` and the file name |
| SceneExportProperties.CombinedReportLine | mtsblend/export/scene.py:66-67 | severities `info` and `error` with message `x` log `INFO|ERROR: x` |
| World.DictMerge | mtsblend/properties/world.py:39-43 | the keys are those of any argument, and each key is bound to the value of the last argument holding it |
| WorldProperties.DictMergeAppend | mtsblend/properties/world.py:39-43 | merging a concatenation of argument lists is the right-biased union of the two merges |
| WorldProperties.DictMergeSingle | mtsblend/properties/world.py:39-43 | a single argument is returned as it is |
| World.TextureAppendVisibility | mtsblend/properties/world.py:45-52 | the entries are the old ones plus one per property `attr`; each such entry is its old conditions (or none) overridden by the appended ones; every other entry is unchanged |
| WorldProperties.AppendVisibilityIdempotent | mtsblend/properties/world.py:45-52 | appending the same conditions for the same properties again changes nothing |
| WorldProperties.AppendVisibilityDependsOnlyOnAttrs | mtsblend/properties/world.py:45-52 | property order, repetition and properties without `attr` make no difference |
| WorldProperties.AppendVisibilityCommutes | mtsblend/properties/world.py:284-287 | appending for two texture parameters with disjoint attributes gives the same table in either order |
| World.MediumAttr | mtsblend/properties/world.py:57 | the name-store attribute extends the base name by seven characters |
| World.WorldMediumParameter | mtsblend/properties/world.py:54-72 | exactly two definitions: a preset-saved string property `<attr>_medium` with its description, then a search over the scene's media with `attr` and `name` as given that writes into `<attr>_medium` of the world settings |
| WorldProperties.MediumPairDistinct | mtsblend/properties/world.py:54-72 | the pair declares exactly the two distinct attributes `attr` and `<attr>_medium` |
| WorldProperties.MediumPairsDisjoint | mtsblend/properties/world.py:54-72 | two pairs declare disjoint attributes iff neither base name is the other or the other's name store |
| WorldProperties.WorldMediumAttrsDistinct | mtsblend/properties/world.py:83-100 | the world settings' interior and exterior pairs declare four distinct attributes, none of them `preview_object_size` |
| World.MediumParamset | mtsblend/properties/world.py:289-301 | the scale is always last; a preset emits only `material` before it; otherwise sigmaA then sigmaS, or sigmaT then albedo when the switch is on |
| WorldProperties.ParamsetMentionsOnlySelected | mtsblend/properties/world.py:291-300 | a preset mentions no coefficient; otherwise only the selected pair of coefficients is mentioned |
| WorldProperties.PresetIgnoresCoefficients | mtsblend/properties/world.py:291-299 | with a preset the coefficient switch and the texture parameters make no difference |

## Left out

- Upstream node capabilities (`get_bsdf_dict`, `get_medium_dict`, `get_emitter_dict`, `get_lamp_dict`, `get_environment_dict`):
  - They are opaque, pure maps from aspect to dictionary, because their code is not part of this model.
  - A missing capability becomes an error.
  - Records such a node might add to the document itself are not modelled.
  - The arguments a capability receives are not modelled. In particular `get_lamp_dict(mts_context, lamp)` does not see the lamp object, so a lamp node shared by several lamps gives each of them the same dictionary.
- Key order within records: records are maps. The `OrderedDict` with `id` first only affects serialisation order.
- Aliasing: `interior` holds the same dictionary object as the medium parameters. Dictionaries are values here.
- `ParamSet`: treated as a sequence of named entries, where `update` appends. Merging of equal names is not modelled.
- `ColorTextureParameter.get_paramset`: an opaque function of the coefficient, because its code is not part of this model.
- The `properties`, `controls` and `visibility` literal tables of the property groups, and Blender registration: configuration data. Of them, only the two world-medium pairs are modelled (`WorldProperties.WorldMediumAttrsDistinct`).
- `MtsManager` internals:
  - Only the active manager and ownership are modelled.
  - `SetCurrentScene`, the manager's context object and what `reset` does are not.
  - `set_filename` and `configure` are assumed not to raise.
- Collaborators of the export pass (integrator and camera `api_output`, `export_node_tree`, `export_lamp`, `GeometryExporter.iterateScene`, `is_obj_visible`): abstract functions, because their code is not part of this model.
- Collaborator contracts assumed by the export pass:
  - Only the geometry exporter reads or writes `ExportedMaterials`. The integrator, world, camera and lamp exports are taken not to touch the material cache. `SceneExport.EmitGeometry`, `SceneExportProperties.GeometryStartsFromClearedCache` and `SceneExportProperties.CacheIsolation` rely on this.
  - A camera's `api_output(mts_context, scene)` returns its one record and adds nothing to the context itself.
  - `is_obj_visible` always returns an answer and never raises.
- NodeOutputProperties.FreshTransactionUnique: the document the geometry exporter resolves materials into is not modelled, so the premise of `NodeOutputProperties.PriorRecordsUnique` (no earlier record declares a generated `<name>-bsdf` or `<name>-medium` id) is not derived for the integrator, world, camera and lamp records.
- `efutil.export_path`, `traceback.print_exc` and `MtsLog`: global or logging side effects. The log line itself is modelled by `SceneExport.FormatReport`.
- NodeOutputProperties.ReferencesDeclared: a reference medium (`type` `ref`) names a medium declared outside `get_output_dict`, by the scene's media export, which is not part of this model; the target of such a reference is not stated.
- `SceneExport.JoinPath`: models `os.path.join` on a POSIX host only.
- `SceneExport.Upper`: upper-cases ASCII letters only, not the full Unicode mapping of `str.upper`.
- Report severities are a sequence. `export` passes a Python set, whose iteration order only matters with more than one severity.
- The float ranges on the medium properties (scale, asymmetry and colours): UI constraints that `get_paramset` does not check.
- `mtsblend/properties/mesh.py` and `mtsblend/ui/textures/main.py`: a declarative schema and a UI panel, with no behaviour in this core.

=== FILE: document.dfy ===
/**
 * The renderer-facing document: plugin records are parameter dictionaries,
 * the document is the ordered sequence of records handed to `data_add`, and
 * the exported-materials cache maps a material name to its parameters.
 */
module Document {

  /** A parameter value: strings, booleans, numbers or a nested dictionary. */
  datatype Value = Str(s: string) | Bool(b: bool) | Num(n: real) | Dict(d: map<string, Value>)

  /** One plugin record (a Python dict; key order inside a record is not modelled). */
  type Params = map<string, Value>

  /** The output document, in `data_add` call order. */
  type Doc = seq<Params>

  /** The exported-materials cache, keyed by material name. */
  type Cache = map<string, Params>

  /** `{type: ref, id: <id>}`, a by-name reference to an earlier record. */
  function RefTo(id: string): (r: Params)
    ensures IsRef(r) && HasId(r, id)
    ensures r.Keys == {"type", "id"}
  {
    map["type" := Str("ref"), "id" := Str(id)]
  }

  /** The record is a reference. */
  predicate IsRef(p: Params) {
    "type" in p && p["type"] == Str("ref")
  }

  /** The record carries the given `id`. */
  predicate HasId(p: Params, id: string) {
    "id" in p && p["id"] == Str(id)
  }

  /** Some record of the document carries the given `id`. */
  predicate Declares(doc: Doc, id: string) {
    exists i :: 0 <= i < |doc| && HasId(doc[i], id)
  }

  /** How many records of the document carry the given `id`. */
  function CountId(doc: Doc, id: string): (n: nat)
    ensures n <= |doc|
    ensures n == 0 <==> !Declares(doc, id)
  {
    if |doc| == 0 then 0
    else CountId(doc[..|doc| - 1], id) + (if HasId(doc[|doc| - 1], id) then 1 else 0)
  }

  /** Counting distributes over concatenation of documents. */
  lemma {:induction false} CountIdAppend(a: Doc, b: Doc, id: string)
    ensures CountId(a + b, id) == CountId(a, id) + CountId(b, id)
    decreases |b|
  {
    if |b| == 0 {
      assert a + b == a;
    } else {
      var last := |b| - 1;
      assert (a + b)[..|a + b| - 1] == a + b[..last];
      CountIdAppend(a, b[..last], id);
    }
  }

  /** `pre` is a prefix of `doc`: records are only ever appended. */
  predicate IsPrefix(pre: Doc, doc: Doc) {
    |pre| <= |doc| && doc[..|pre|] == pre
  }
}

=== FILE: node_output.dfy ===
/**
 * The material, lamp and world output nodes: the roots of a shader node
 * graph. Upstream nodes are opaque: each exposes the parameter dictionaries
 * of the aspects it can resolve (its `get_<aspect>_dict` capabilities).
 */
module NodeOutput {
  import opened Wrappers
  import opened Document

  /** The `get_<aspect>_dict` capabilities an upstream node may implement. */
  datatype Aspect = BsdfAspect | SubsurfaceAspect | MediumAspect | EmitterAspect | LampAspect | EnvironmentAspect

  /** An upstream node: the dictionary each of its capabilities returns. */
  datatype UpstreamNode = UpstreamNode(name: string, dicts: map<Aspect, Params>)

  /** An input socket: its `enabled` flag and the node linked to it, if any. */
  datatype Socket = Socket(enabled: bool, link: Option<UpstreamNode>)

  /** The named input sockets of an output node (`self.inputs`). */
  type Inputs = map<string, Socket>

  const BsdfSocket := "Bsdf"
  const SubsurfaceSocket := "Subsurface"
  const InteriorSocket := "Interior Medium"
  const ExteriorSocket := "Exterior Medium"
  const EmitterSocket := "Emitter"
  const LampSocket := "Lamp"
  const EnvironmentSocket := "Environment"

  /** The keys a material's parameter dictionary may hold. */
  const MaterialKeys: set<string> := {"bsdf", "subsurface", "interior", "emitter"}

  /** What `get_output_dict` can raise. */
  datatype NodeError =
    | MissingSocket(socket: string)                    // KeyError on self.inputs[...]
    | MissingCapability(node: string, aspect: Aspect)  // the linked node lacks get_<aspect>_dict
    | MissingKey(key: string)                          // KeyError on interior_params['type']

  /** The socket exists and has a node linked to it. */
  predicate Linked(inputs: Inputs, socket: string) {
    socket in inputs && inputs[socket].link.Some?
  }

  function BsdfId(name: string): string { name + "-bsdf" }

  function MediumId(name: string): string { name + "-medium" }

  /** The dictionary a node's capability returns, or the error of calling a capability it lacks. */
  function Capability(node: UpstreamNode, aspect: Aspect): (r: Result<Params, NodeError>)
    ensures r.Ok? <==> aspect in node.dicts
    ensures r.Ok? ==> r.value == node.dicts[aspect]
    ensures r.Err? ==> r.error == MissingCapability(node.name, aspect)
  {
    if aspect in node.dicts then Ok(node.dicts[aspect]) else Err(MissingCapability(node.name, aspect))
  }

  // ---------------------------------------------------------------------------
  // MtsNodeMaterialOutput.update
  // ---------------------------------------------------------------------------

  /**
   * Socket enabling: Interior Medium and Subsurface each disable the other
   * while linked; nothing happens unless both sockets exist.
   */
  function MaterialUpdate(inputs: Inputs): (r: Inputs)
    ensures r.Keys == inputs.Keys
    ensures forall s :: s in inputs ==> r[s].link == inputs[s].link
    ensures SubsurfaceSocket in inputs && InteriorSocket in inputs ==>
              && (r[InteriorSocket].enabled <==> !Linked(inputs, SubsurfaceSocket))
              && (r[SubsurfaceSocket].enabled <==> !Linked(inputs, InteriorSocket))
    ensures forall s :: s in inputs && s != InteriorSocket && s != SubsurfaceSocket ==> r[s] == inputs[s]
    ensures SubsurfaceSocket !in inputs || InteriorSocket !in inputs ==> r == inputs
  {
    if SubsurfaceSocket in inputs && InteriorSocket in inputs then
      var interiorEnabled := inputs[SubsurfaceSocket].link.None?;
      var subsurfaceEnabled := inputs[InteriorSocket].link.None?;
      inputs[InteriorSocket := inputs[InteriorSocket].(enabled := interiorEnabled)]
            [SubsurfaceSocket := inputs[SubsurfaceSocket].(enabled := subsurfaceEnabled)]
    else
      inputs
  }

  // ---------------------------------------------------------------------------
  // MtsNodeMaterialOutput.get_output_dict
  // ---------------------------------------------------------------------------

  /** Progress through the sockets: records appended so far, the material so far, the error if any. */
  datatype Step = Step(doc: Doc, mat: Params, failure: Option<NodeError>)

  /** The outcome of one resolution: the document and cache after it, and its result. */
  datatype Resolution = Resolution(doc: Doc, cache: Cache, result: Result<Params, NodeError>)

  /** The standalone BSDF record: `id` first, then the upstream dictionary on top of it. */
  function BsdfRecord(name: string, bsdf: Params): (r: Params)
    ensures "id" !in bsdf ==> HasId(r, BsdfId(name))
    ensures forall k :: k in bsdf ==> k in r && r[k] == bsdf[k]
    ensures r.Keys == bsdf.Keys + {"id"}
  {
    map["id" := Str(BsdfId(name))] + bsdf
  }

  /** The interior medium parameters: a default `id`, overridden by the upstream dictionary. */
  function MediumRecord(name: string, medium: Params): (r: Params)
    ensures "id" !in medium ==> HasId(r, MediumId(name))
    ensures forall k :: k in medium ==> k in r && r[k] == medium[k]
    ensures r.Keys == medium.Keys + {"id"}
  {
    map["id" := Str(MediumId(name))] + medium
  }

  /** Bsdf socket: a linked BSDF is emitted as its own record and only referenced. */
  function BsdfStage(inputs: Inputs, name: string, doc: Doc): (s: Step)
    ensures s.failure.None? <==> BsdfSocket in inputs && (Linked(inputs, BsdfSocket) ==> BsdfAspect in inputs[BsdfSocket].link.value.dicts)
    ensures BsdfSocket !in inputs ==> s.failure == Some(MissingSocket(BsdfSocket))
    ensures s.failure.Some? ==> s.doc == doc
    ensures s.failure.None? && !Linked(inputs, BsdfSocket) ==> s.doc == doc && s.mat == map[]
    ensures s.failure.None? && Linked(inputs, BsdfSocket) ==>
              && s.doc == doc + [BsdfRecord(name, inputs[BsdfSocket].link.value.dicts[BsdfAspect])]
              && s.mat == map["bsdf" := Dict(RefTo(BsdfId(name)))]
  {
    if BsdfSocket !in inputs then Step(doc, map[], Some(MissingSocket(BsdfSocket)))
    else match inputs[BsdfSocket].link
      case None => Step(doc, map[], None)
      case Some(node) =>
        match Capability(node, BsdfAspect)
        case Err(e) => Step(doc, map[], Some(e))
        case Ok(bsdf) => Step(doc + [BsdfRecord(name, bsdf)], map["bsdf" := Dict(RefTo(BsdfId(name)))], None)
  }

  /** Subsurface socket: a linked subsurface dictionary is embedded as-is. */
  function SubsurfaceStage(inputs: Inputs, doc: Doc, mat: Params): (s: Step)
    ensures s.doc == doc
    ensures SubsurfaceSocket !in inputs ==> s.failure == Some(MissingSocket(SubsurfaceSocket))
    ensures s.failure.None? <==> SubsurfaceSocket in inputs && (Linked(inputs, SubsurfaceSocket) ==> SubsurfaceAspect in inputs[SubsurfaceSocket].link.value.dicts)
    ensures s.failure.None? && !Linked(inputs, SubsurfaceSocket) ==> s.mat == mat
    ensures s.failure.None? && Linked(inputs, SubsurfaceSocket) ==>
              s.mat == mat["subsurface" := Dict(inputs[SubsurfaceSocket].link.value.dicts[SubsurfaceAspect])]
  {
    if SubsurfaceSocket !in inputs then Step(doc, mat, Some(MissingSocket(SubsurfaceSocket)))
    else match inputs[SubsurfaceSocket].link
      case None => Step(doc, mat, None)
      case Some(node) =>
        match Capability(node, SubsurfaceAspect)
        case Err(e) => Step(doc, mat, Some(e))
        case Ok(sss) => Step(doc, mat["subsurface" := Dict(sss)], None)
  }

  /**
   * Interior Medium socket, read only when Subsurface is unlinked: a medium
   * that is already a reference is embedded; any other medium is emitted as
   * its own record and referenced as `<name>-medium`.
   */
  function InteriorStage(inputs: Inputs, name: string, doc: Doc, mat: Params): (s: Step)
    ensures InteriorSocket !in inputs ==> s.failure == Some(MissingSocket(InteriorSocket))
    ensures s.failure.Some? <==>
              || InteriorSocket !in inputs
              || (Linked(inputs, InteriorSocket) && !Linked(inputs, SubsurfaceSocket) &&
                  (MediumAspect !in inputs[InteriorSocket].link.value.dicts ||
                   "type" !in inputs[InteriorSocket].link.value.dicts[MediumAspect]))
    ensures s.failure.Some? || !Linked(inputs, InteriorSocket) || Linked(inputs, SubsurfaceSocket) ==> s.doc == doc
    ensures s.failure.None? && (!Linked(inputs, InteriorSocket) || Linked(inputs, SubsurfaceSocket)) ==> s.mat == mat
    ensures s.failure.None? && Linked(inputs, InteriorSocket) && !Linked(inputs, SubsurfaceSocket) ==>
              var medium := MediumRecord(name, inputs[InteriorSocket].link.value.dicts[MediumAspect]);
              && "type" in medium
              && (medium["type"] == Str("ref") ==> s.doc == doc && s.mat == mat["interior" := Dict(medium)])
              && (medium["type"] != Str("ref") ==> s.doc == doc + [medium] && s.mat == mat["interior" := Dict(RefTo(MediumId(name)))])
  {
    if InteriorSocket !in inputs then Step(doc, mat, Some(MissingSocket(InteriorSocket)))
    else match inputs[InteriorSocket].link
      case None => Step(doc, mat, None)
      case Some(node) =>
        if Linked(inputs, SubsurfaceSocket) then Step(doc, mat, None)
        else match Capability(node, MediumAspect)
          case Err(e) => Step(doc, mat, Some(e))
          case Ok(m) =>
            var medium := MediumRecord(name, m);
            if "type" !in medium then Step(doc, mat, Some(MissingKey("type")))
            else if medium["type"] == Str("ref") then Step(doc, mat["interior" := Dict(medium)], None)
            else Step(doc + [medium], mat["interior" := Dict(RefTo(MediumId(name)))], None)
  }

  /** Emitter socket: a linked emitter dictionary is embedded as-is. */
  function EmitterStage(inputs: Inputs, doc: Doc, mat: Params): (s: Step)
    ensures s.doc == doc
    ensures EmitterSocket !in inputs ==> s.failure == Some(MissingSocket(EmitterSocket))
    ensures s.failure.None? <==> EmitterSocket in inputs && (Linked(inputs, EmitterSocket) ==> EmitterAspect in inputs[EmitterSocket].link.value.dicts)
    ensures s.failure.None? && !Linked(inputs, EmitterSocket) ==> s.mat == mat
    ensures s.failure.None? && Linked(inputs, EmitterSocket) ==>
              s.mat == mat["emitter" := Dict(inputs[EmitterSocket].link.value.dicts[EmitterAspect])]
  {
    if EmitterSocket !in inputs then Step(doc, mat, Some(MissingSocket(EmitterSocket)))
    else match inputs[EmitterSocket].link
      case None => Step(doc, mat, None)
      case Some(node) =>
        match Capability(node, EmitterAspect)
        case Err(e) => Step(doc, mat, Some(e))
        case Ok(em) => Step(doc, mat["emitter" := Dict(em)], None)
  }

  /**
   * Resolve a material: return the cached parameters when the name was
   * already exported; otherwise walk Bsdf, Subsurface, Interior Medium and
   * Emitter in declaration order (Exterior Medium is never read), append the
   * standalone records, and register the result under the material's name.
   * A raised error keeps the records already appended and registers nothing.
   */
  function MaterialOutputDict(inputs: Inputs, name: string, doc: Doc, cache: Cache): (o: Resolution)
    ensures name in cache ==> o == Resolution(doc, cache, Ok(cache[name]))
    ensures IsPrefix(doc, o.doc) && |o.doc| <= |doc| + 2
    ensures o.result.Err? ==> o.cache == cache
    ensures o.result.Ok? ==> o.cache == cache[name := o.result.value]
    ensures name !in cache && o.result.Ok? ==>
              && o.result.value.Keys <= MaterialKeys
              && ("bsdf" in o.result.value <==> Linked(inputs, BsdfSocket))
              && ("subsurface" in o.result.value <==> Linked(inputs, SubsurfaceSocket))
              && ("interior" in o.result.value <==> Linked(inputs, InteriorSocket) && !Linked(inputs, SubsurfaceSocket))
              && ("emitter" in o.result.value <==> Linked(inputs, EmitterSocket))
  {
    if name in cache then Resolution(doc, cache, Ok(cache[name]))
    else
      var s1 := BsdfStage(inputs, name, doc);
      if s1.failure.Some? then Resolution(s1.doc, cache, Err(s1.failure.value))
      else
        var s2 := SubsurfaceStage(inputs, s1.doc, s1.mat);
        if s2.failure.Some? then Resolution(s2.doc, cache, Err(s2.failure.value))
        else
          var s3 := InteriorStage(inputs, name, s2.doc, s2.mat);
          if s3.failure.Some? then Resolution(s3.doc, cache, Err(s3.failure.value))
          else
            var s4 := EmitterStage(inputs, s3.doc, s3.mat);
            if s4.failure.Some? then Resolution(s4.doc, cache, Err(s4.failure.value))
            else Resolution(s4.doc, cache[name := s4.mat], Ok(s4.mat))
  }

  // ---------------------------------------------------------------------------
  // MtsNodeLampOutput / MtsNodeWorldOutput .get_output_dict
  // ---------------------------------------------------------------------------

  /** Shared rule of the lamp and world outputs: `{}` when unlinked, else the upstream dictionary. */
  function SingleSocketOutput(inputs: Inputs, socket: string, aspect: Aspect): (r: Result<Params, NodeError>)
    ensures socket !in inputs ==> r == Err(MissingSocket(socket))
    ensures socket in inputs && !Linked(inputs, socket) ==> r == Ok(map[])
    ensures Linked(inputs, socket) ==> r == Capability(inputs[socket].link.value, aspect)
  {
    if socket !in inputs then Err(MissingSocket(socket))
    else match inputs[socket].link
      case None => Ok(map[])
      case Some(node) => Capability(node, aspect)
  }

  /** The lamp output: the Lamp socket's `get_lamp_dict`, or `{}` when unlinked. */
  function LampOutputDict(inputs: Inputs): (r: Result<Params, NodeError>)
    ensures LampSocket in inputs && !Linked(inputs, LampSocket) ==> r == Ok(map[])
    ensures Linked(inputs, LampSocket) && LampAspect in inputs[LampSocket].link.value.dicts ==>
              r == Ok(inputs[LampSocket].link.value.dicts[LampAspect])
    ensures r.Err? <==> LampSocket !in inputs || (Linked(inputs, LampSocket) && LampAspect !in inputs[LampSocket].link.value.dicts)
  {
    SingleSocketOutput(inputs, LampSocket, LampAspect)
  }

  /** The world output: the Environment socket's `get_environment_dict`, or `{}` when unlinked. */
  function WorldOutputDict(inputs: Inputs): (r: Result<Params, NodeError>)
    ensures EnvironmentSocket in inputs && !Linked(inputs, EnvironmentSocket) ==> r == Ok(map[])
    ensures Linked(inputs, EnvironmentSocket) && EnvironmentAspect in inputs[EnvironmentSocket].link.value.dicts ==>
              r == Ok(inputs[EnvironmentSocket].link.value.dicts[EnvironmentAspect])
    ensures r.Err? <==> EnvironmentSocket !in inputs || (Linked(inputs, EnvironmentSocket) && EnvironmentAspect !in inputs[EnvironmentSocket].link.value.dicts)
  {
    SingleSocketOutput(inputs, EnvironmentSocket, EnvironmentAspect)
  }
}

=== FILE: node_output_properties.dfy ===
/**
 * Properties of the material output resolution that relate several calls,
 * or that describe the records one call appends.
 */
module NodeOutputProperties {
  import opened Wrappers
  import opened Document
  import opened NodeOutput

  /**
   * The records a resolution appends carry the generated ids: the BSDF
   * dictionary brings no `id` of its own, nor does an interior medium that
   * is emitted as a record. A reference medium, which is never appended,
   * may name any medium.
   */
  predicate NoForeignIds(inputs: Inputs, name: string) {
    && (Linked(inputs, BsdfSocket) && BsdfAspect in inputs[BsdfSocket].link.value.dicts ==>
          "id" !in inputs[BsdfSocket].link.value.dicts[BsdfAspect])
    && (EmitsMedium(inputs, name) ==> "id" !in inputs[InteriorSocket].link.value.dicts[MediumAspect])
  }

  /**
   * A reference medium is never emitted, so the no-foreign-id hypothesis
   * places no condition on it: its own `id` is allowed.
   */
  lemma ReferenceMediumUnconstrained(inputs: Inputs, name: string)
    requires Linked(inputs, InteriorSocket) && MediumAspect in inputs[InteriorSocket].link.value.dicts
    requires IsRef(inputs[InteriorSocket].link.value.dicts[MediumAspect])
    ensures !EmitsMedium(inputs, name)
    ensures NoForeignIds(inputs, name) <==>
              (Linked(inputs, BsdfSocket) && BsdfAspect in inputs[BsdfSocket].link.value.dicts ==>
                 "id" !in inputs[BsdfSocket].link.value.dicts[BsdfAspect])
  {
    var medium := inputs[InteriorSocket].link.value.dicts[MediumAspect];
    assert MediumRecord(name, medium)["type"] == medium["type"];
  }

  /** The interior medium is emitted as a record of its own (linked, not suppressed, not a reference). */
  predicate EmitsMedium(inputs: Inputs, name: string) {
    && Linked(inputs, InteriorSocket)
    && !Linked(inputs, SubsurfaceSocket)
    && MediumAspect in inputs[InteriorSocket].link.value.dicts
    && var medium := MediumRecord(name, inputs[InteriorSocket].link.value.dicts[MediumAspect]);
       "type" in medium && medium["type"] != Str("ref")
  }

  lemma BsdfIdInjective(a: string, b: string)
    ensures BsdfId(a) == BsdfId(b) ==> a == b
  {
    if BsdfId(a) == BsdfId(b) {
      assert BsdfId(a)[..|a|] == a;
      assert BsdfId(b)[..|b|] == b;
    }
  }

  lemma MediumIdInjective(a: string, b: string)
    ensures MediumId(a) == MediumId(b) ==> a == b
  {
    if MediumId(a) == MediumId(b) {
      assert MediumId(a)[..|a|] == a;
      assert MediumId(b)[..|b|] == b;
    }
  }

  lemma BsdfIdNotMediumId(a: string, b: string)
    ensures BsdfId(a) != MediumId(b)
  {
    var x, y := BsdfId(a), MediumId(b);
    assert x[|x| - 1] == 'f';
    assert y[|y| - 1] == 'm';
  }

  /**
   * Exactly the records one successful resolution of an unexported material
   * appends: the BSDF record when Bsdf is linked, then the medium record when
   * the interior medium is emitted; the material refers to them by the
   * generated ids.
   */
  lemma AppendedRecords(inputs: Inputs, name: string, doc: Doc, cache: Cache)
    requires name !in cache
    requires MaterialOutputDict(inputs, name, doc, cache).result.Ok?
    ensures var o := MaterialOutputDict(inputs, name, doc, cache);
            && o.doc == doc
                 + (if Linked(inputs, BsdfSocket) then [BsdfRecord(name, inputs[BsdfSocket].link.value.dicts[BsdfAspect])] else [])
                 + (if EmitsMedium(inputs, name) then [MediumRecord(name, inputs[InteriorSocket].link.value.dicts[MediumAspect])] else [])
            && (Linked(inputs, BsdfSocket) ==> o.result.value["bsdf"] == Dict(RefTo(BsdfId(name))))
            && (EmitsMedium(inputs, name) ==> o.result.value["interior"] == Dict(RefTo(MediumId(name))))
  {
    var o := MaterialOutputDict(inputs, name, doc, cache);
    var s1 := BsdfStage(inputs, name, doc);
    var s2 := SubsurfaceStage(inputs, s1.doc, s1.mat);
    var s3 := InteriorStage(inputs, name, s2.doc, s2.mat);
    var s4 := EmitterStage(inputs, s3.doc, s3.mat);
    assert o.doc == s4.doc;
  }

  // ---------------------------------------------------------------------------
  // When a resolution succeeds, and what it raises otherwise
  // ---------------------------------------------------------------------------

  /**
   * Every socket `get_output_dict` reads exists, and every linked node it
   * asks for a dictionary can give one; a medium it would emit or embed has
   * a `type`.
   */
  predicate Resolves(inputs: Inputs) {
    && BsdfSocket in inputs && SubsurfaceSocket in inputs && InteriorSocket in inputs && EmitterSocket in inputs
    && (Linked(inputs, BsdfSocket) ==> BsdfAspect in inputs[BsdfSocket].link.value.dicts)
    && (Linked(inputs, SubsurfaceSocket) ==> SubsurfaceAspect in inputs[SubsurfaceSocket].link.value.dicts)
    && (Linked(inputs, InteriorSocket) && !Linked(inputs, SubsurfaceSocket) ==>
          && MediumAspect in inputs[InteriorSocket].link.value.dicts
          && "type" in inputs[InteriorSocket].link.value.dicts[MediumAspect])
    && (Linked(inputs, EmitterSocket) ==> EmitterAspect in inputs[EmitterSocket].link.value.dicts)
  }

  /** The KeyError of a missing socket, or the AttributeError of a linked node lacking the capability. */
  function SocketError(inputs: Inputs, socket: string, aspect: Aspect): Option<NodeError> {
    if socket !in inputs then Some(MissingSocket(socket))
    else if Linked(inputs, socket) && aspect !in inputs[socket].link.value.dicts then
      Some(MissingCapability(inputs[socket].link.value.name, aspect))
    else None
  }

  /** What reading Interior Medium raises: only its presence is checked while Subsurface is linked. */
  function MediumError(inputs: Inputs): Option<NodeError> {
    if InteriorSocket !in inputs then Some(MissingSocket(InteriorSocket))
    else if Linked(inputs, SubsurfaceSocket) then None
    else if SocketError(inputs, InteriorSocket, MediumAspect).Some? then SocketError(inputs, InteriorSocket, MediumAspect)
    else if Linked(inputs, InteriorSocket) && "type" !in inputs[InteriorSocket].link.value.dicts[MediumAspect] then
      Some(MissingKey("type"))
    else None
  }

  /** The error of the first socket, in the order Bsdf, Subsurface, Interior Medium, Emitter, that raises. */
  function ResolutionError(inputs: Inputs): Option<NodeError> {
    if SocketError(inputs, BsdfSocket, BsdfAspect).Some? then SocketError(inputs, BsdfSocket, BsdfAspect)
    else if SocketError(inputs, SubsurfaceSocket, SubsurfaceAspect).Some? then SocketError(inputs, SubsurfaceSocket, SubsurfaceAspect)
    else if MediumError(inputs).Some? then MediumError(inputs)
    else SocketError(inputs, EmitterSocket, EmitterAspect)
  }

  /**
   * A material not yet exported resolves exactly when `Resolves` holds, and
   * otherwise raises the error of the first socket that fails.
   */
  lemma ResolutionOutcome(inputs: Inputs, name: string, doc: Doc, cache: Cache)
    requires name !in cache
    ensures var o := MaterialOutputDict(inputs, name, doc, cache);
            && (o.result.Ok? <==> Resolves(inputs))
            && (Resolves(inputs) <==> ResolutionError(inputs).None?)
            && (o.result.Err? ==> o.result.error == ResolutionError(inputs).value)
  {
    var s1 := BsdfStage(inputs, name, doc);
    if s1.failure.None? {
      var s2 := SubsurfaceStage(inputs, s1.doc, s1.mat);
      if s2.failure.None? {
        var s3 := InteriorStage(inputs, name, s2.doc, s2.mat);
        if s3.failure.None? {
          var s4 := EmitterStage(inputs, s3.doc, s3.mat);
        }
      }
    }
  }

  /**
   * The Subsurface and Emitter dictionaries of a successful fresh resolution
   * are the upstream nodes' dictionaries, embedded unchanged.
   */
  lemma EmbeddedEntriesUnchanged(inputs: Inputs, name: string, doc: Doc, cache: Cache)
    requires name !in cache
    requires MaterialOutputDict(inputs, name, doc, cache).result.Ok?
    ensures var o := MaterialOutputDict(inputs, name, doc, cache);
            && (Linked(inputs, SubsurfaceSocket) ==>
                  && SubsurfaceAspect in inputs[SubsurfaceSocket].link.value.dicts
                  && o.result.value["subsurface"] == Dict(inputs[SubsurfaceSocket].link.value.dicts[SubsurfaceAspect]))
            && (Linked(inputs, EmitterSocket) ==>
                  && EmitterAspect in inputs[EmitterSocket].link.value.dicts
                  && o.result.value["emitter"] == Dict(inputs[EmitterSocket].link.value.dicts[EmitterAspect]))
  {
    var s1 := BsdfStage(inputs, name, doc);
    var s2 := SubsurfaceStage(inputs, s1.doc, s1.mat);
    var s3 := InteriorStage(inputs, name, s2.doc, s2.mat);
    var s4 := EmitterStage(inputs, s3.doc, s3.mat);
    assert MaterialOutputDict(inputs, name, doc, cache).result.value == s4.mat;
  }

  /**
   * No forward reference: when the upstream dictionaries carry no `id` of
   * their own, every reference the material holds names a record that is
   * already in the document when the material is returned.
   */
  lemma ReferencesDeclared(inputs: Inputs, name: string, doc: Doc, cache: Cache)
    requires name !in cache
    requires MaterialOutputDict(inputs, name, doc, cache).result.Ok?
    requires NoForeignIds(inputs, name)
    ensures var o := MaterialOutputDict(inputs, name, doc, cache);
            && (Linked(inputs, BsdfSocket) ==> o.result.value["bsdf"] == Dict(RefTo(BsdfId(name))) && Declares(o.doc, BsdfId(name)))
            && (EmitsMedium(inputs, name) ==> o.result.value["interior"] == Dict(RefTo(MediumId(name))) && Declares(o.doc, MediumId(name)))
  {
    var o := MaterialOutputDict(inputs, name, doc, cache);
    AppendedRecords(inputs, name, doc, cache);
    if Linked(inputs, BsdfSocket) {
      assert HasId(o.doc[|doc|], BsdfId(name));
    }
    if EmitsMedium(inputs, name) {
      assert HasId(o.doc[|o.doc| - 1], MediumId(name));
    }
  }

  /**
   * An interior medium that is already a reference is embedded under
   * `interior` (its own keys unchanged, `id` defaulted to `<name>-medium`)
   * and no record is appended for it.
   */
  lemma ReferenceMediumEmbedded(inputs: Inputs, name: string, doc: Doc, cache: Cache)
    requires name !in cache
    requires Linked(inputs, InteriorSocket) && !Linked(inputs, SubsurfaceSocket)
    requires MediumAspect in inputs[InteriorSocket].link.value.dicts
    requires IsRef(inputs[InteriorSocket].link.value.dicts[MediumAspect])
    requires MaterialOutputDict(inputs, name, doc, cache).result.Ok?
    ensures var o := MaterialOutputDict(inputs, name, doc, cache);
            var medium := inputs[InteriorSocket].link.value.dicts[MediumAspect];
            && |o.doc| == |doc| + (if Linked(inputs, BsdfSocket) then 1 else 0)
            && o.result.value["interior"].Dict?
            && o.result.value["interior"].d.Keys == medium.Keys + {"id"}
            && (forall k :: k in medium ==> o.result.value["interior"].d[k] == medium[k])
            && ("id" in medium ==> o.result.value["interior"] == Dict(medium))
            && ("id" !in medium ==> o.result.value["interior"].d["id"] == Str(MediumId(name)))
  {
    AppendedRecords(inputs, name, doc, cache);
    var medium := inputs[InteriorSocket].link.value.dicts[MediumAspect];
    if "id" in medium {
      assert MediumRecord(name, medium) == medium;
    } else {
      assert MediumRecord(name, medium)["id"] == Str(MediumId(name));
    }
  }

  /** The two input maps agree on every socket the material output reads. */
  predicate SameReadSockets(a: Inputs, b: Inputs) {
    forall s :: s in {BsdfSocket, SubsurfaceSocket, InteriorSocket, EmitterSocket} ==>
      (s in a <==> s in b) && (s in a ==> a[s] == b[s])
  }

  lemma ReadSocketsDetermine(a: Inputs, b: Inputs, name: string, doc: Doc, cache: Cache)
    requires SameReadSockets(a, b)
    ensures MaterialOutputDict(a, name, doc, cache) == MaterialOutputDict(b, name, doc, cache)
  {
    assert BsdfSocket in {BsdfSocket, SubsurfaceSocket, InteriorSocket, EmitterSocket};
    assert SubsurfaceSocket in {BsdfSocket, SubsurfaceSocket, InteriorSocket, EmitterSocket};
    assert InteriorSocket in {BsdfSocket, SubsurfaceSocket, InteriorSocket, EmitterSocket};
    assert EmitterSocket in {BsdfSocket, SubsurfaceSocket, InteriorSocket, EmitterSocket};
    var s1 := BsdfStage(a, name, doc);
    assert s1 == BsdfStage(b, name, doc);
    var s2 := SubsurfaceStage(a, s1.doc, s1.mat);
    assert s2 == SubsurfaceStage(b, s1.doc, s1.mat);
    var s3 := InteriorStage(a, name, s2.doc, s2.mat);
    assert s3 == InteriorStage(b, name, s2.doc, s2.mat);
    var s4 := EmitterStage(a, s3.doc, s3.mat);
    assert s4 == EmitterStage(b, s3.doc, s3.mat);
  }

  /** Exterior Medium is never read: relinking or removing it changes nothing. */
  lemma ExteriorMediumIgnored(inputs: Inputs, socket: Socket, name: string, doc: Doc, cache: Cache)
    ensures MaterialOutputDict(inputs[ExteriorSocket := socket], name, doc, cache) == MaterialOutputDict(inputs, name, doc, cache)
    ensures MaterialOutputDict(inputs - {ExteriorSocket}, name, doc, cache) == MaterialOutputDict(inputs, name, doc, cache)
  {
    ReadSocketsDetermine(inputs[ExteriorSocket := socket], inputs, name, doc, cache);
    ReadSocketsDetermine(inputs - {ExteriorSocket}, inputs, name, doc, cache);
  }

  /**
   * Once a material resolved, resolving the same name again (whatever its
   * node graph now says) returns the same parameters and appends nothing.
   */
  lemma ResolutionIdempotent(inputs: Inputs, again: Inputs, name: string, doc: Doc, cache: Cache)
    requires MaterialOutputDict(inputs, name, doc, cache).result.Ok?
    ensures var o := MaterialOutputDict(inputs, name, doc, cache);
            MaterialOutputDict(again, name, o.doc, o.cache) == o
  {
  }

  // ---------------------------------------------------------------------------
  // At most one record per name within a run of resolutions
  // ---------------------------------------------------------------------------

  /** One `get_output_dict` call of a run: the material's inputs and its name. */
  datatype Call = Call(inputs: Inputs, name: string)

  /** The state after a run of resolutions that share one document and one cache. */
  datatype Batch = Batch(doc: Doc, cache: Cache, failure: Option<NodeError>)

  /** Resolve the calls in order, stopping at the first error as the exporter does. */
  function ResolveAll(calls: seq<Call>, doc: Doc, cache: Cache): (b: Batch)
    ensures IsPrefix(doc, b.doc)
    ensures cache.Keys <= b.cache.Keys
    decreases |calls|
  {
    if |calls| == 0 then Batch(doc, cache, None)
    else
      var o := MaterialOutputDict(calls[0].inputs, calls[0].name, doc, cache);
      if o.result.Err? then Batch(o.doc, o.cache, Some(o.result.error))
      else ResolveAll(calls[1..], o.doc, o.cache)
  }

  /**
   * The de-duplication invariant: a material's BSDF and medium ids are each
   * declared at most once, and not at all before the material is cached.
   */
  ghost predicate Unique(doc: Doc, cache: Cache) {
    forall n :: && CountId(doc, BsdfId(n)) <= (if n in cache then 1 else 0)
                && CountId(doc, MediumId(n)) <= (if n in cache then 1 else 0)
  }

  lemma CountSingle(r: Params, id: string)
    ensures CountId([r], id) == if HasId(r, id) then 1 else 0
  {
    assert [r][..0] == [];
  }

  /**
   * Appending at most one record with the BSDF id of a material not yet
   * cached and at most one with its medium id, then caching it, keeps the
   * invariant.
   */
  lemma AppendKeepsUnique(doc: Doc, cache: Cache, name: string, mat: Params, a: Doc, b: Doc)
    requires Unique(doc, cache) && name !in cache
    requires |a| <= 1 && (|a| == 1 ==> HasId(a[0], BsdfId(name)))
    requires |b| <= 1 && (|b| == 1 ==> HasId(b[0], MediumId(name)))
    ensures Unique(doc + a + b, cache[name := mat])
  {
    var cache' := cache[name := mat];
    forall n
      ensures CountId(doc + a + b, BsdfId(n)) <= (if n in cache' then 1 else 0)
      ensures CountId(doc + a + b, MediumId(n)) <= (if n in cache' then 1 else 0)
    {
      CountIdAppend(doc + a, b, BsdfId(n));
      CountIdAppend(doc, a, BsdfId(n));
      CountIdAppend(doc + a, b, MediumId(n));
      CountIdAppend(doc, a, MediumId(n));
      BsdfIdInjective(n, name);
      MediumIdInjective(n, name);
      BsdfIdNotMediumId(n, name);
      BsdfIdNotMediumId(name, n);
      if |a| == 1 {
        CountSingle(a[0], BsdfId(n));
        CountSingle(a[0], MediumId(n));
      } else {
        assert a == [];
      }
      if |b| == 1 {
        CountSingle(b[0], BsdfId(n));
        CountSingle(b[0], MediumId(n));
      } else {
        assert b == [];
      }
    }
  }

  /** One successful resolution keeps the de-duplication invariant. */
  lemma ResolutionKeepsUnique(inputs: Inputs, name: string, doc: Doc, cache: Cache)
    requires Unique(doc, cache) && NoForeignIds(inputs, name)
    requires MaterialOutputDict(inputs, name, doc, cache).result.Ok?
    ensures var o := MaterialOutputDict(inputs, name, doc, cache);
            Unique(o.doc, o.cache)
  {
    var o := MaterialOutputDict(inputs, name, doc, cache);
    if name !in cache {
      AppendedRecords(inputs, name, doc, cache);
      var a: Doc := if Linked(inputs, BsdfSocket) then [BsdfRecord(name, inputs[BsdfSocket].link.value.dicts[BsdfAspect])] else [];
      var b: Doc := if EmitsMedium(inputs, name) then [MediumRecord(name, inputs[InteriorSocket].link.value.dicts[MediumAspect])] else [];
      assert o.doc == doc + a + b;
      assert o.cache == cache[name := o.result.value];
      AppendKeepsUnique(doc, cache, name, o.result.value, a, b);
    }
  }

  /**
   * At-most-once emission: across a run of successful resolutions sharing
   * the document and cache, no BSDF or medium id is declared twice, however
   * often the same material is resolved.
   */
  lemma {:induction false} AtMostOnce(calls: seq<Call>, doc: Doc, cache: Cache)
    requires Unique(doc, cache)
    requires forall i :: 0 <= i < |calls| ==> NoForeignIds(calls[i].inputs, calls[i].name)
    requires ResolveAll(calls, doc, cache).failure.None?
    ensures var b := ResolveAll(calls, doc, cache);
            Unique(b.doc, b.cache)
    decreases |calls|
  {
    if |calls| > 0 {
      var o := MaterialOutputDict(calls[0].inputs, calls[0].name, doc, cache);
      ResolutionKeepsUnique(calls[0].inputs, calls[0].name, doc, cache);
      assert forall i :: 0 <= i < |calls[1..]| ==> calls[1..][i] == calls[i + 1];
      AtMostOnce(calls[1..], o.doc, o.cache);
    }
  }

  /** A fresh transaction (empty document, cleared cache) satisfies the invariant. */
  lemma FreshTransactionUnique()
    ensures Unique([], map[])
  {
  }

  /**
   * With the cache cleared, a document already holding other records (the
   * integrator, world, camera and lamp records of an export) satisfies the
   * invariant exactly when none of them declares a generated id.
   */
  lemma PriorRecordsUnique(prior: Doc)
    ensures Unique(prior, map[]) <==>
              forall n :: !Declares(prior, BsdfId(n)) && !Declares(prior, MediumId(n))
  {
    if Unique(prior, map[]) {
      forall n
        ensures !Declares(prior, BsdfId(n)) && !Declares(prior, MediumId(n))
      {
        assert CountId(prior, BsdfId(n)) <= 0 && CountId(prior, MediumId(n)) <= 0;
      }
    }
  }

  // ---------------------------------------------------------------------------
  // A reference that points nowhere
  // ---------------------------------------------------------------------------

  /**
   * When the upstream BSDF dictionary brings its own `id`, that id replaces
   * `<name>-bsdf` on the appended record while the material still refers to
   * `<name>-bsdf`: the reference names no record of the document.
   */
  lemma ForeignBsdfIdDangles()
    ensures var bsdf := map["type" := Str("diffuse"), "id" := Str("shared")];
            var node := UpstreamNode("Diffuse BSDF", map[BsdfAspect := bsdf]);
            var inputs := map[BsdfSocket := Socket(true, Some(node)),
                              SubsurfaceSocket := Socket(true, None),
                              InteriorSocket := Socket(true, None),
                              EmitterSocket := Socket(true, None)];
            var o := MaterialOutputDict(inputs, "m", [], map[]);
            && o.result.Ok?
            && o.result.value["bsdf"] == Dict(RefTo("m-bsdf"))
            && |o.doc| == 1 && HasId(o.doc[0], "shared")
            && !Declares(o.doc, "m-bsdf")
  {
    var bsdf := map["type" := Str("diffuse"), "id" := Str("shared")];
    var node := UpstreamNode("Diffuse BSDF", map[BsdfAspect := bsdf]);
    var inputs := map[BsdfSocket := Socket(true, Some(node)),
                      SubsurfaceSocket := Socket(true, None),
                      InteriorSocket := Socket(true, None),
                      EmitterSocket := Socket(true, None)];
    assert BsdfId("m") == "m-bsdf";
    assert BsdfRecord("m", bsdf) == bsdf;
    var s1 := BsdfStage(inputs, "m", []);
    assert s1 == Step([bsdf], map["bsdf" := Dict(RefTo("m-bsdf"))], None);
    var s2 := SubsurfaceStage(inputs, s1.doc, s1.mat);
    assert s2 == s1;
    var s3 := InteriorStage(inputs, "m", s2.doc, s2.mat);
    assert s3 == s1;
    var s4 := EmitterStage(inputs, s3.doc, s3.mat);
    assert s4 == s1;
    var o := MaterialOutputDict(inputs, "m", [], map[]);
    assert o.doc == [bsdf];
    assert !HasId(bsdf, "m-bsdf");
  }

  // ---------------------------------------------------------------------------
  // Lamp and world outputs
  // ---------------------------------------------------------------------------

  /** The single-socket outputs read nothing but their own socket. */
  lemma SingleSocketReadsOnlyItsSocket(a: Inputs, b: Inputs, socket: string, aspect: Aspect)
    requires socket in a <==> socket in b
    requires socket in a ==> a[socket].link == b[socket].link
    ensures SingleSocketOutput(a, socket, aspect) == SingleSocketOutput(b, socket, aspect)
  {
  }

  /** The lamp output ignores every socket but Lamp, and its enabled flag. */
  lemma LampOutputReadsOnlyLamp(a: Inputs, b: Inputs)
    requires LampSocket in a <==> LampSocket in b
    requires LampSocket in a ==> a[LampSocket].link == b[LampSocket].link
    ensures LampOutputDict(a) == LampOutputDict(b)
  {
    SingleSocketReadsOnlyItsSocket(a, b, LampSocket, LampAspect);
  }

  /** The world output ignores every socket but Environment, and its enabled flag. */
  lemma WorldOutputReadsOnlyEnvironment(a: Inputs, b: Inputs)
    requires EnvironmentSocket in a <==> EnvironmentSocket in b
    requires EnvironmentSocket in a ==> a[EnvironmentSocket].link == b[EnvironmentSocket].link
    ensures WorldOutputDict(a) == WorldOutputDict(b)
  {
    SingleSocketReadsOnlyItsSocket(a, b, EnvironmentSocket, EnvironmentAspect);
  }

  // ---------------------------------------------------------------------------
  // Socket enabling
  // ---------------------------------------------------------------------------

  /** Applying `update` twice is the same as once. */
  lemma UpdateIdempotent(inputs: Inputs)
    ensures MaterialUpdate(MaterialUpdate(inputs)) == MaterialUpdate(inputs)
  {
  }

  /**
   * After `update`, a linked Subsurface leaves Interior Medium disabled and a
   * linked Interior Medium leaves Subsurface disabled: the two cannot both be
   * linked and enabled.
   */
  lemma UpdateMutualExclusion(inputs: Inputs)
    requires SubsurfaceSocket in inputs && InteriorSocket in inputs
    ensures var r := MaterialUpdate(inputs);
            !(r[InteriorSocket].enabled && r[InteriorSocket].link.Some? &&
              r[SubsurfaceSocket].enabled && r[SubsurfaceSocket].link.Some?)
  {
  }
}

=== FILE: scene_export.dfy ===
/**
 * The scene export orchestrator (`SceneExporter.export`): one linear pass
 * that acquires a manager, configures the output path, clears the
 * exported-materials cache and emits integrator, world, cameras (active one
 * last), visible lamps and geometry before finalising. Every collaborator
 * the pass calls is a function field of `Collaborators`.
 */
module SceneExport {
  import opened Wrappers
  import opened Document

  /** A scene object, with Blender's object type (`CAMERA`, `LAMP`, `MESH`, ...). */
  datatype SceneObject = SceneObject(name: string, kind: string)

  /** The scene: its objects in iteration order, the active camera and the re-raise test flag. */
  datatype Scene = Scene(name: string, objects: seq<SceneObject>, camera: Option<SceneObject>, reRaise: bool)

  /** `SceneExporterProperties`: output file name, output directory and backend kind. */
  datatype ExportProperties = ExportProperties(filename: string, directory: string, apiType: string)

  /** A renderer manager, as created for a scene and backend. */
  datatype Manager = Manager(sceneName: string, apiType: string)

  /** What a collaborator appended before returning or raising (`failure`). */
  datatype Emission = Emission(records: seq<Params>, failure: Option<string>)

  /** The geometry exporter also hands back the exported-materials cache it filled. */
  datatype GeometryEmission = GeometryEmission(records: seq<Params>, cache: Cache, failure: Option<string>)

  /** The code this pass calls but that lives elsewhere. */
  datatype Collaborators = Collaborators(
    integrator: Scene -> Result<Params, string>,         // scene.mitsuba_integrator.api_output()
    world: Scene -> Emission,                            // scene.world.mitsuba_nodes.export_node_tree
    camera: (Scene, SceneObject) -> Result<Params, string>,  // camera.data.mitsuba_camera.api_output
    lamp: (Scene, SceneObject) -> Emission,              // export_lamp
    geometry: (Scene, Cache) -> GeometryEmission,        // GeometryExporter.iterateScene
    visible: (Scene, SceneObject) -> bool)               // is_obj_visible

  /** Who asked for a record to be added. */
  datatype Source = Integrator | World | Camera(camera: SceneObject) | Lamp(lamp: SceneObject) | Geometry

  /** The observable effects of the pass, in order. */
  datatype Event =
    | SetFilename(path: string)             // mts_context.set_filename
    | ClearCache                            // ExportedMaterials.clear
    | DataAdd(source: Source, record: Params)  // mts_context.data_add
    | Configure                             // mts_context.configure
    | ResetManager                          // MM.reset

  /** Why the pass aborted. */
  datatype ExportError =
    | InvalidScene(filename: string)        // the scene is None
    | DirectoryIndex                        // directory[-1] on an empty directory
    | NoneAttribute(attribute: string)      // an attribute read on None
    | Backend(message: string)              // a collaborator raised

  /** `{'FINISHED'}`, `{'CANCELLED'}`, or an exception propagating to the caller. */
  datatype Status = Finished | Cancelled | Raised(error: ExportError)

  /** One `self.report(types, message)` call. */
  datatype Report = Report(types: seq<string>, message: string)

  /** The body of the `try`: events so far, properties and cache as left, and the error if one was raised. */
  datatype Attempt = Attempt(events: seq<Event>, properties: ExportProperties, cache: Cache, failure: Option<ExportError>)

  /** Everything an export call leaves behind. */
  datatype ExportOutcome = ExportOutcome(
    status: Status,
    events: seq<Event>,
    reports: seq<Report>,
    active: Option<Manager>,   // MtsManager's active manager afterwards
    created: bool,             // this call created that manager
    properties: ExportProperties,
    cache: Cache)

  const FileApi := "FILE"

  // ---------------------------------------------------------------------------
  // Path handling
  // ---------------------------------------------------------------------------

  predicate EndsWithSeparator(d: string) {
    |d| > 0 && (d[|d| - 1] == '/' || d[|d| - 1] == '\\')
  }

  /** Append `/` to a non-empty directory that ends in neither `/` nor `\`. */
  function NormaliseDirectory(d: string): (r: string)
    requires |d| > 0
    ensures EndsWithSeparator(r)
    ensures EndsWithSeparator(d) ==> r == d
    ensures !EndsWithSeparator(d) ==> r == d + "/"
  {
    if d[|d| - 1] != '/' && d[|d| - 1] != '\\' then d + "/" else d
  }

  /** `os.path.join(a, b)` on a POSIX host. */
  function JoinPath(a: string, b: string): (r: string)
    ensures |b| > 0 && b[0] == '/' ==> r == b
    ensures (|b| == 0 || b[0] != '/') ==> |r| >= |a| + |b| && r[..|a|] == a && r[|r| - |b|..] == b
  {
    if |b| > 0 && b[0] == '/' then b
    else if |a| == 0 || a[|a| - 1] == '/' then a + b
    else a + "/" + b
  }

  // ---------------------------------------------------------------------------
  // Reports
  // ---------------------------------------------------------------------------

  function UpperChar(c: char): (u: char)
    ensures !('a' <= u <= 'z')
    ensures !('a' <= c <= 'z') ==> u == c
  {
    if 'a' <= c <= 'z' then (c as int - 32) as char else c
  }

  /** ASCII upper-casing of a severity name. */
  function Upper(s: string): (r: string)
    ensures |r| == |s|
    ensures forall i :: 0 <= i < |s| ==> r[i] == UpperChar(s[i])
  {
    seq(|s|, i requires 0 <= i < |s| => UpperChar(s[i]))
  }

  /** `'|'.join(...)` over the upper-cased severities. */
  function JoinUpper(types: seq<string>): (r: string)
    ensures |r| == 0 <==> |types| == 0 || (|types| == 1 && |types[0]| == 0)
  {
    if |types| == 0 then ""
    else if |types| == 1 then Upper(types[0])
    else Upper(types[0]) + "|" + JoinUpper(types[1..])
  }

  /** The log line of the default `report`: upper-cased severities joined by `|`, then `: message`. */
  function FormatReport(r: Report): (line: string)
    ensures |line| >= |r.message| + 2
    ensures line[|line| - |r.message|..] == r.message
    ensures line[|line| - |r.message| - 2..|line| - |r.message|] == ": "
    ensures line[..|line| - |r.message| - 2] == JoinUpper(r.types)
  {
    JoinUpper(r.types) + ": " + r.message
  }

  /** The text of the exception, as `'%s' % err` renders it. */
  function ErrorText(e: ExportError): (r: string)
    ensures e.InvalidScene? ==> |r| >= |e.filename| && r[|r| - |e.filename|..] == e.filename
    ensures e.NoneAttribute? ==> |r| > |e.attribute| + 1 && r[|r| - |e.attribute| - 1..|r| - 1] == e.attribute
    ensures e.Backend? ==> r == e.message
    ensures e.DirectoryIndex? ==> r == "string index out of range"
  {
    match e
    case InvalidScene(f) => "Scene is not valid for export to " + f
    case DirectoryIndex => "string index out of range"
    case NoneAttribute(a) => "'NoneType' object has no attribute '" + a + "'"
    case Backend(m) => m
  }

  /** The report of the handler: an ERROR whose message is `Export aborted: ` and the error's text. */
  function AbortReport(e: ExportError): (r: Report)
    ensures r.types == ["ERROR"]
    ensures |r.message| == 16 + |ErrorText(e)|
    ensures r.message[..16] == "Export aborted: " && r.message[16..] == ErrorText(e)
  {
    Report(["ERROR"], "Export aborted: " + ErrorText(e))
  }

  // ---------------------------------------------------------------------------
  // Object selection
  // ---------------------------------------------------------------------------

  /** The cameras other than the active one, in object order. */
  function OtherCameras(objects: seq<SceneObject>, activeName: string): (r: seq<SceneObject>)
    ensures |r| <= |objects|
    ensures forall o :: o in r <==> o in objects && o.kind == "CAMERA" && o.name != activeName
  {
    if |objects| == 0 then []
    else
      var rest := OtherCameras(objects[1..], activeName);
      if objects[0].kind == "CAMERA" && objects[0].name != activeName then [objects[0]] + rest else rest
  }

  /** The visible lamps, in object order (visibility is asked of every object first). */
  function VisibleLamps(scene: Scene, objects: seq<SceneObject>, visible: (Scene, SceneObject) -> bool): (r: seq<SceneObject>)
    ensures |r| <= |objects|
    ensures forall o :: o in r <==> o in objects && visible(scene, o) && o.kind == "LAMP"
  {
    if |objects| == 0 then []
    else
      var rest := VisibleLamps(scene, objects[1..], visible);
      if visible(scene, objects[0]) && objects[0].kind == "LAMP" then [objects[0]] + rest else rest
  }

  /** Some object is a camera (so the camera filter reads `scene.camera.name`). */
  predicate HasCameraObject(objects: seq<SceneObject>) {
    exists i :: 0 <= i < |objects| && objects[i].kind == "CAMERA"
  }

  // ---------------------------------------------------------------------------
  // Projections of the event trace
  // ---------------------------------------------------------------------------

  /** Position of each kind of event in the required order. */
  function Rank(e: Event): nat {
    match e
    case SetFilename(_) => 0
    case ClearCache => 1
    case DataAdd(src, _) =>
      (match src
       case Integrator => 2
       case World => 3
       case Camera(_) => 4
       case Lamp(_) => 5
       case Geometry => 6)
    case Configure => 7
    case ResetManager => 8
  }

  /** Events never go back to an earlier kind. */
  ghost predicate Ordered(events: seq<Event>) {
    forall i, j :: 0 <= i < j < |events| ==> Rank(events[i]) <= Rank(events[j])
  }

  /** Every event's rank lies between `lo` and `hi`. */
  ghost predicate Within(events: seq<Event>, lo: nat, hi: nat) {
    forall e :: e in events ==> lo <= Rank(e) <= hi
  }

  /** The records, each added on behalf of `src`. */
  function Tagged(src: Source, records: seq<Params>): (r: seq<Event>)
    ensures |r| == |records|
    ensures forall i :: 0 <= i < |r| ==> r[i] == DataAdd(src, records[i])
  {
    seq(|records|, i requires 0 <= i < |records| => DataAdd(src, records[i]))
  }

  /** The cameras whose records were added, in order. */
  function CameraObjects(events: seq<Event>): seq<SceneObject> {
    if |events| == 0 then []
    else
      (if events[0].DataAdd? && events[0].source.Camera? then [events[0].source.camera] else [])
      + CameraObjects(events[1..])
  }

  /** The records added on behalf of lamps, in order. */
  function LampRecords(events: seq<Event>): seq<Params> {
    if |events| == 0 then []
    else
      (if events[0].DataAdd? && events[0].source.Lamp? then [events[0].record] else [])
      + LampRecords(events[1..])
  }

  /** What `export_lamp` appends for each of the lamps, concatenated in order. */
  function LampOutput(scene: Scene, lamps: seq<SceneObject>, c: Collaborators): seq<Params> {
    if |lamps| == 0 then [] else c.lamp(scene, lamps[0]).records + LampOutput(scene, lamps[1..], c)
  }

  // ---------------------------------------------------------------------------
  // The trace of a pass in which no collaborator raises, defined directly
  // ---------------------------------------------------------------------------

  /** Every camera's `api_output` returns a record. */
  ghost predicate CamerasExport(scene: Scene, c: Collaborators, cams: seq<SceneObject>) {
    forall i :: 0 <= i < |cams| ==> c.camera(scene, cams[i]).Ok?
  }

  /** No lamp's `export_lamp` raises. */
  ghost predicate LampsExport(scene: Scene, c: Collaborators, lamps: seq<SceneObject>) {
    forall i :: 0 <= i < |lamps| ==> c.lamp(scene, lamps[i]).failure.None?
  }

  /** Each camera's record, added on its behalf, in order (a camera whose export raises adds none). */
  function CameraTrace(scene: Scene, c: Collaborators, cams: seq<SceneObject>): seq<Event> {
    if |cams| == 0 then []
    else
      (match c.camera(scene, cams[0])
       case Ok(rec) => [DataAdd(Camera(cams[0]), rec)]
       case Err(_) => [])
      + CameraTrace(scene, c, cams[1..])
  }

  /** Each lamp's records, added on its behalf, lamp after lamp. */
  function LampTrace(scene: Scene, c: Collaborators, lamps: seq<SceneObject>): seq<Event> {
    if |lamps| == 0 then [] else Tagged(Lamp(lamps[0]), c.lamp(scene, lamps[0]).records) + LampTrace(scene, c, lamps[1..])
  }

  /** Every collaborator the `try` body calls after the path set-up returns normally. */
  ghost predicate Succeeds(scene: Scene, c: Collaborators) {
    && c.integrator(scene).Ok?
    && c.world(scene).failure.None?
    && scene.camera.Some?
    && CamerasExport(scene, c, OtherCameras(scene.objects, scene.camera.value.name))
    && c.camera(scene, scene.camera.value).Ok?
    && LampsExport(scene, c, VisibleLamps(scene, scene.objects, c.visible))
    && c.geometry(scene, map[]).failure.None?
  }

  /**
   * What the `try` body adds after the cache clear when nothing raises: the
   * integrator's record, the world's records, every other camera's record in
   * object order, the active camera's record, each visible lamp's records in
   * object order, the geometry exporter's records, then `configure`.
   */
  function SuccessTrace(scene: Scene, c: Collaborators): seq<Event>
    requires c.integrator(scene).Ok? && scene.camera.Some? && c.camera(scene, scene.camera.value).Ok?
  {
    [DataAdd(Integrator, c.integrator(scene).value)]
    + Tagged(World, c.world(scene).records)
    + CameraTrace(scene, c, OtherCameras(scene.objects, scene.camera.value.name))
    + [DataAdd(Camera(scene.camera.value), c.camera(scene, scene.camera.value).value)]
    + LampTrace(scene, c, VisibleLamps(scene, scene.objects, c.visible))
    + Tagged(Geometry, c.geometry(scene, map[]).records)
    + [Configure]
  }

  // ---------------------------------------------------------------------------
  // The error that ends a pass in which a collaborator raises, defined directly
  // ---------------------------------------------------------------------------

  /** The message of the first camera whose `api_output` raises, if any. */
  function CameraError(scene: Scene, c: Collaborators, cams: seq<SceneObject>): Option<string> {
    if |cams| == 0 then None
    else if c.camera(scene, cams[0]).Err? then Some(c.camera(scene, cams[0]).error)
    else CameraError(scene, c, cams[1..])
  }

  /** The message of the first lamp whose `export_lamp` raises, if any. */
  function LampError(scene: Scene, c: Collaborators, lamps: seq<SceneObject>): Option<string> {
    if |lamps| == 0 then None
    else if c.lamp(scene, lamps[0]).failure.Some? then c.lamp(scene, lamps[0]).failure
    else LampError(scene, c, lamps[1..])
  }

  /**
   * The exception the `try` body raises after the path set-up: that of the
   * first collaborator, in the order the body calls them, that raises; or
   * the AttributeError of reading the missing active camera.
   */
  function FirstError(scene: Scene, c: Collaborators): Option<ExportError> {
    if c.integrator(scene).Err? then Some(Backend(c.integrator(scene).error))
    else if c.world(scene).failure.Some? then Some(Backend(c.world(scene).failure.value))
    else if scene.camera.None? then Some(NoneAttribute(if HasCameraObject(scene.objects) then "name" else "data"))
    else if CameraError(scene, c, OtherCameras(scene.objects, scene.camera.value.name)).Some? then
      Some(Backend(CameraError(scene, c, OtherCameras(scene.objects, scene.camera.value.name)).value))
    else if c.camera(scene, scene.camera.value).Err? then Some(Backend(c.camera(scene, scene.camera.value).error))
    else if LampError(scene, c, VisibleLamps(scene, scene.objects, c.visible)).Some? then
      Some(Backend(LampError(scene, c, VisibleLamps(scene, scene.objects, c.visible)).value))
    else if c.geometry(scene, map[]).failure.Some? then Some(Backend(c.geometry(scene, map[]).failure.value))
    else None
  }

  // ---------------------------------------------------------------------------
  // Facts about stretches of the trace
  // ---------------------------------------------------------------------------

  lemma WithinOrdered(s: seq<Event>, k: nat)
    requires Within(s, k, k)
    ensures Ordered(s)
  {
    forall i, j | 0 <= i < j < |s|
      ensures Rank(s[i]) <= Rank(s[j])
    {
      assert s[i] in s && s[j] in s;
    }
  }

  /** Appending a stretch that starts at or after the rank where the first one ends keeps the order. */
  lemma OrderedConcat(a: seq<Event>, b: seq<Event>, lo: nat, mid: nat, hi: nat)
    requires lo <= mid <= hi
    requires Ordered(a) && Within(a, lo, mid)
    requires Ordered(b) && Within(b, mid, hi)
    ensures Ordered(a + b) && Within(a + b, lo, hi)
  {
    var ab := a + b;
    assert forall e :: e in ab ==> e in a || e in b;
    forall i, j | 0 <= i < j < |ab|
      ensures Rank(ab[i]) <= Rank(ab[j])
    {
      if i < |a| && j >= |a| {
        assert ab[i] == a[i] && a[i] in a;
        assert ab[j] == b[j - |a|] && b[j - |a|] in b;
      } else if i >= |a| {
        assert ab[i] == b[i - |a|] && ab[j] == b[j - |a|];
      } else {
        assert ab[i] == a[i] && ab[j] == a[j];
      }
    }
  }

  lemma TaggedWithin(src: Source, records: seq<Params>, k: nat)
    requires k == Rank(DataAdd(src, map[]))
    ensures Within(Tagged(src, records), k, k) && Ordered(Tagged(src, records))
  {
    var t := Tagged(src, records);
    forall e | e in t
      ensures Rank(e) == k
    {
      var i :| 0 <= i < |t| && t[i] == e;
    }
    WithinOrdered(t, k);
  }

  lemma {:induction false} CameraObjectsAppend(a: seq<Event>, b: seq<Event>)
    ensures CameraObjects(a + b) == CameraObjects(a) + CameraObjects(b)
    decreases |a|
  {
    if |a| > 0 {
      assert (a + b)[0] == a[0];
      assert (a + b)[1..] == a[1..] + b;
      CameraObjectsAppend(a[1..], b);
    } else {
      assert a + b == b;
    }
  }

  lemma {:induction false} LampRecordsAppend(a: seq<Event>, b: seq<Event>)
    ensures LampRecords(a + b) == LampRecords(a) + LampRecords(b)
    decreases |a|
  {
    if |a| > 0 {
      assert (a + b)[0] == a[0];
      assert (a + b)[1..] == a[1..] + b;
      LampRecordsAppend(a[1..], b);
    } else {
      assert a + b == b;
    }
  }

  /** A stretch without camera events names no camera; one without lamp events holds no lamp record. */
  lemma {:induction false} Quiet(s: seq<Event>, lo: nat, hi: nat)
    requires Within(s, lo, hi)
    ensures hi < 4 || 4 < lo ==> CameraObjects(s) == []
    ensures hi < 5 || 5 < lo ==> LampRecords(s) == []
    decreases |s|
  {
    if |s| > 0 {
      assert s[0] in s;
      assert forall e :: e in s[1..] ==> e in s;
      Quiet(s[1..], lo, hi);
    }
  }

  lemma {:induction false} LampRecordsOfTagged(lamp: SceneObject, records: seq<Params>)
    ensures LampRecords(Tagged(Lamp(lamp), records)) == records
    decreases |records|
  {
    if |records| > 0 {
      assert Tagged(Lamp(lamp), records)[1..] == Tagged(Lamp(lamp), records[1..]);
      LampRecordsOfTagged(lamp, records[1..]);
    }
  }

  // ---------------------------------------------------------------------------
  // The emission loops
  // ---------------------------------------------------------------------------

  /** Events emitted so far by a loop, and the message of the collaborator that raised, if any. */
  datatype Run = Run(events: seq<Event>, failure: Option<string>)

  /** `for camera in allCameras: data_add(api_output(...))`, stopping at the first raise. */
  function EmitCameras(scene: Scene, c: Collaborators, cams: seq<SceneObject>): (r: Run)
    ensures Within(r.events, 4, 4)
    ensures |r.events| <= |cams|
    ensures CameraObjects(r.events) == cams[..|r.events|]
    ensures r.failure.None? ==> CameraObjects(r.events) == cams
    ensures r.failure.Some? ==> |r.events| < |cams| && c.camera(scene, cams[|r.events|]).Err?
    ensures r.failure.None? <==> CamerasExport(scene, c, cams)
    ensures r.failure.None? ==> r.events == CameraTrace(scene, c, cams)
    ensures r.failure == CameraError(scene, c, cams)
  {
    if |cams| == 0 then Run([], None)
    else match c.camera(scene, cams[0])
      case Err(m) => Run([], Some(m))
      case Ok(rec) =>
        var rest := EmitCameras(scene, c, cams[1..]);
        var events := [DataAdd(Camera(cams[0]), rec)] + rest.events;
        assert events[1..] == rest.events;
        Run(events, rest.failure)
  }

  /** `for lamp in renderableLamps: export_lamp(...)`, stopping at the first raise. */
  function EmitLamps(scene: Scene, c: Collaborators, lamps: seq<SceneObject>): (r: Run)
    ensures Within(r.events, 5, 5)
    ensures r.failure.None? ==> LampRecords(r.events) == LampOutput(scene, lamps, c)
    ensures r.failure.None? <==> LampsExport(scene, c, lamps)
    ensures r.failure.None? ==> r.events == LampTrace(scene, c, lamps)
    ensures r.failure == LampError(scene, c, lamps)
  {
    if |lamps| == 0 then Run([], None)
    else
      var e := c.lamp(scene, lamps[0]);
      var mine := Tagged(Lamp(lamps[0]), e.records);
      TaggedWithin(Lamp(lamps[0]), e.records, 5);
      LampRecordsOfTagged(lamps[0], e.records);
      if e.failure.Some? then Run(mine, e.failure)
      else
        var rest := EmitLamps(scene, c, lamps[1..]);
        LampRecordsAppend(mine, rest.events);
        Run(mine + rest.events, rest.failure)
  }

  // ---------------------------------------------------------------------------
  // The export pass, stage by stage
  // ---------------------------------------------------------------------------

  /** The rest of the `try` body from some stage on: its events, the cache, the error if any. */
  datatype Body = Body(events: seq<Event>, cache: Cache, failure: Option<ExportError>)

  /** Geometry, then `configure`. */
  function EmitGeometry(scene: Scene, c: Collaborators): (b: Body)
    ensures b.cache == c.geometry(scene, map[]).cache
    ensures b.failure.None? <==> c.geometry(scene, map[]).failure.None?
    ensures b.failure.None? ==> |b.events| > 0 && b.events[|b.events| - 1] == Configure
    ensures b.events == Tagged(Geometry, c.geometry(scene, map[]).records) + (if b.failure.None? then [Configure] else [])
    ensures c.geometry(scene, map[]).failure.Some? ==> b.failure == Some(Backend(c.geometry(scene, map[]).failure.value))
  {
    var g := c.geometry(scene, map[]);
    var e := Tagged(Geometry, g.records);
    if g.failure.Some? then Body(e, g.cache, Some(Backend(g.failure.value)))
    else Body(e + [Configure], g.cache, None)
  }

  /** Every visible lamp in object order, then geometry onwards. */
  function EmitLights(scene: Scene, c: Collaborators): (b: Body)
    ensures b.failure.None? ==> EmitLamps(scene, c, VisibleLamps(scene, scene.objects, c.visible)).failure.None?
    ensures b.failure.None? ==> b == EmitGeometry(scene, c).(events := b.events)
    ensures var e := LampError(scene, c, VisibleLamps(scene, scene.objects, c.visible));
            b.failure == if e.Some? then Some(Backend(e.value)) else EmitGeometry(scene, c).failure
  {
    var lamps := EmitLamps(scene, c, VisibleLamps(scene, scene.objects, c.visible));
    if lamps.failure.Some? then Body(lamps.events, map[], Some(Backend(lamps.failure.value)))
    else
      var rest := EmitGeometry(scene, c);
      rest.(events := lamps.events + rest.events)
  }

  /** The active camera's record, then lamps onwards. */
  function EmitActiveCamera(scene: Scene, c: Collaborators, active: SceneObject): (b: Body)
    ensures b.failure.None? ==> c.camera(scene, active).Ok?
    ensures c.camera(scene, active).Ok? ==> |b.events| > 0 && b.events[0] == DataAdd(Camera(active), c.camera(scene, active).value)
    ensures b.failure.None? ==> b == EmitGeometry(scene, c).(events := b.events)
    ensures c.camera(scene, active).Err? ==> b.failure == Some(Backend(c.camera(scene, active).error))
    ensures c.camera(scene, active).Ok? ==> b.failure == EmitLights(scene, c).failure
  {
    match c.camera(scene, active)
    case Err(m) => Body([], map[], Some(Backend(m)))
    case Ok(rec) =>
      var rest := EmitLights(scene, c);
      rest.(events := [DataAdd(Camera(active), rec)] + rest.events)
  }

  /** The other cameras in object order, the active camera last, then lamps onwards. */
  function EmitCameraStage(scene: Scene, c: Collaborators): (b: Body)
    ensures b.failure.None? ==> scene.camera.Some?
    ensures scene.camera.None? ==> b.events == [] && b.failure == Some(NoneAttribute(if HasCameraObject(scene.objects) then "name" else "data"))
    ensures b.failure.None? ==> b == EmitGeometry(scene, c).(events := b.events)
    ensures scene.camera.Some? ==>
              var e := CameraError(scene, c, OtherCameras(scene.objects, scene.camera.value.name));
              b.failure == if e.Some? then Some(Backend(e.value)) else EmitActiveCamera(scene, c, scene.camera.value).failure
  {
    if scene.camera.None? then
      Body([], map[], Some(NoneAttribute(if HasCameraObject(scene.objects) then "name" else "data")))
    else
      var active := scene.camera.value;
      var cams := EmitCameras(scene, c, OtherCameras(scene.objects, active.name));
      if cams.failure.Some? then Body(cams.events, map[], Some(Backend(cams.failure.value)))
      else
        var rest := EmitActiveCamera(scene, c, active);
        rest.(events := cams.events + rest.events)
  }

  /** The integrator record, the world's records, then cameras onwards. */
  function EmitScene(scene: Scene, c: Collaborators): (b: Body)
    ensures c.integrator(scene).Err? ==> b == Body([], map[], Some(Backend(c.integrator(scene).error)))
    ensures b.failure.None? ==> c.integrator(scene).Ok? && c.world(scene).failure.None?
    ensures c.integrator(scene).Ok? ==>
              var opening := [DataAdd(Integrator, c.integrator(scene).value)] + Tagged(World, c.world(scene).records);
              |opening| <= |b.events| && b.events[..|opening|] == opening
    ensures b.failure.None? ==> b == EmitGeometry(scene, c).(events := b.events)
    ensures c.integrator(scene).Ok? && c.world(scene).failure.Some? ==> b.failure == Some(Backend(c.world(scene).failure.value))
    ensures c.integrator(scene).Ok? && c.world(scene).failure.None? ==> b.failure == EmitCameraStage(scene, c).failure
  {
    match c.integrator(scene)
    case Err(m) => Body([], map[], Some(Backend(m)))
    case Ok(rec) =>
      var w := c.world(scene);
      var e := [DataAdd(Integrator, rec)] + Tagged(World, w.records);
      if w.failure.Some? then Body(e, map[], Some(Backend(w.failure.value)))
      else
        var rest := EmitCameraStage(scene, c);
        rest.(events := e + rest.events)
  }

  /** `set_filename` for the file backend, then the cache clear. */
  function PathSetup(props: ExportProperties): (h: seq<Event>)
    ensures |h| > 0 && h[|h| - 1] == ClearCache
    ensures h[0].SetFilename? <==> props.apiType == FileApi
  {
    (if props.apiType == FileApi then [SetFilename(JoinPath(props.directory, props.filename))] else []) + [ClearCache]
  }

  /** The `try` body, from the path set-up on (the scene is not None). */
  function Transaction(scene: Scene, props: ExportProperties, cache: Cache, c: Collaborators): (t: Attempt)
    ensures |props.directory| == 0 ==> t == Attempt([], props, cache, Some(DirectoryIndex))
    ensures |props.directory| > 0 ==>
              && t.properties == props.(directory := NormaliseDirectory(props.directory))
              && t.events == PathSetup(props) + EmitScene(scene, c).events
              && t.cache == EmitScene(scene, c).cache
              && t.failure == EmitScene(scene, c).failure
  {
    if |props.directory| == 0 then Attempt([], props, cache, Some(DirectoryIndex))
    else
      var body := EmitScene(scene, c);
      Attempt(PathSetup(props) + body.events, props.(directory := NormaliseDirectory(props.directory)), body.cache, body.failure)
  }

  // ---------------------------------------------------------------------------
  // The trace of each stage
  // ---------------------------------------------------------------------------

  /** What a stage that reaches `configure` has emitted when it succeeds. */
  ghost predicate Completes(scene: Scene, c: Collaborators, events: seq<Event>, cache: Cache)
  {
    && scene.camera.Some?
    && CameraObjects(events) == OtherCameras(scene.objects, scene.camera.value.name) + [scene.camera.value]
    && LampRecords(events) == LampOutput(scene, VisibleLamps(scene, scene.objects, c.visible), c)
    && cache == c.geometry(scene, map[]).cache
    && |events| > 0 && events[|events| - 1] == Configure
  }

  lemma GeometryTrace(scene: Scene, c: Collaborators)
    ensures var b := EmitGeometry(scene, c);
            Within(b.events, 6, 7) && Ordered(b.events) && CameraObjects(b.events) == [] && LampRecords(b.events) == []
  {
    var g := c.geometry(scene, map[]);
    var e := Tagged(Geometry, g.records);
    TaggedWithin(Geometry, g.records, 6);
    assert Within([Configure], 7, 7);
    OrderedConcat(e, [Configure], 6, 7, 7);
    Quiet(EmitGeometry(scene, c).events, 6, 7);
  }

  /** Joining two stretches of the trace: order, projections and the last event carry over. */
  lemma Chain(a: seq<Event>, b: seq<Event>, lo: nat, mid: nat, hi: nat)
    requires lo <= mid <= hi
    requires Ordered(a) && Within(a, lo, mid)
    requires Ordered(b) && Within(b, mid, hi)
    ensures Ordered(a + b) && Within(a + b, lo, hi)
    ensures CameraObjects(a + b) == CameraObjects(a) + CameraObjects(b)
    ensures LampRecords(a + b) == LampRecords(a) + LampRecords(b)
    ensures |b| > 0 ==> (a + b)[|a + b| - 1] == b[|b| - 1]
  {
    OrderedConcat(a, b, lo, mid, hi);
    CameraObjectsAppend(a, b);
    LampRecordsAppend(a, b);
  }

  lemma LightsTrace(scene: Scene, c: Collaborators)
    ensures var b := EmitLights(scene, c);
            && Within(b.events, 5, 7) && Ordered(b.events) && CameraObjects(b.events) == []
            && (b.failure.None? ==> LampRecords(b.events) == LampOutput(scene, VisibleLamps(scene, scene.objects, c.visible), c))
            && (b.failure.None? ==> |b.events| > 0 && b.events[|b.events| - 1] == Configure)
  {
    var b := EmitLights(scene, c);
    var lamps := EmitLamps(scene, c, VisibleLamps(scene, scene.objects, c.visible));
    WithinOrdered(lamps.events, 5);
    if lamps.failure.None? {
      var rest := EmitGeometry(scene, c);
      assert b.events == lamps.events + rest.events;
      GeometryTrace(scene, c);
      Chain(lamps.events, rest.events, 5, 6, 7);
    } else {
      assert b.events == lamps.events;
    }
    Quiet(b.events, 5, 7);
  }

  lemma ActiveCameraTrace(scene: Scene, c: Collaborators, active: SceneObject)
    ensures var b := EmitActiveCamera(scene, c, active);
            && Within(b.events, 4, 7) && Ordered(b.events)
            && (b.failure.None? ==>
                  && CameraObjects(b.events) == [active]
                  && LampRecords(b.events) == LampOutput(scene, VisibleLamps(scene, scene.objects, c.visible), c)
                  && |b.events| > 0 && b.events[|b.events| - 1] == Configure)
  {
    var b := EmitActiveCamera(scene, c, active);
    if c.camera(scene, active).Ok? {
      var last := [DataAdd(Camera(active), c.camera(scene, active).value)];
      assert Within(last, 4, 4);
      WithinOrdered(last, 4);
      var rest := EmitLights(scene, c);
      LightsTrace(scene, c);
      Chain(last, rest.events, 4, 5, 7);
      assert b.events == last + rest.events;
    }
  }

  lemma CameraStageTrace(scene: Scene, c: Collaborators)
    ensures var b := EmitCameraStage(scene, c);
            && Within(b.events, 4, 7) && Ordered(b.events)
            && (b.failure.None? ==> Completes(scene, c, b.events, b.cache))
  {
    var b := EmitCameraStage(scene, c);
    if scene.camera.Some? {
      var active := scene.camera.value;
      var others := OtherCameras(scene.objects, active.name);
      var cams := EmitCameras(scene, c, others);
      WithinOrdered(cams.events, 4);
      if cams.failure.None? {
        var rest := EmitActiveCamera(scene, c, active);
        ActiveCameraTrace(scene, c, active);
        CamerasThenActive(cams.events, rest.events);
        assert b == rest.(events := cams.events + rest.events);
      }
    }
  }

  /** The other cameras' records joined to the stage that starts with the active camera. */
  lemma CamerasThenActive(cams: seq<Event>, rest: seq<Event>)
    requires Within(cams, 4, 4) && Ordered(cams)
    requires Within(rest, 4, 7) && Ordered(rest)
    ensures Within(cams + rest, 4, 7) && Ordered(cams + rest)
    ensures CameraObjects(cams + rest) == CameraObjects(cams) + CameraObjects(rest)
    ensures LampRecords(cams + rest) == LampRecords(rest)
    ensures |rest| > 0 ==> (cams + rest)[|cams + rest| - 1] == rest[|rest| - 1]
  {
    Chain(cams, rest, 4, 4, 7);
    Quiet(cams, 4, 4);
  }

  /** The integrator record, then the world's records. */
  lemma OpeningTrace(rec: Params, world: seq<Params>)
    ensures var e := [DataAdd(Integrator, rec)] + Tagged(World, world);
            Within(e, 2, 3) && Ordered(e) && CameraObjects(e) == [] && LampRecords(e) == []
  {
    var first := [DataAdd(Integrator, rec)];
    assert Within(first, 2, 2);
    WithinOrdered(first, 2);
    TaggedWithin(World, world, 3);
    OrderedConcat(first, Tagged(World, world), 2, 3, 3);
    Quiet(first + Tagged(World, world), 2, 3);
  }

  /** Order and projections of the body from the integrator on. */
  lemma SceneOrder(scene: Scene, c: Collaborators)
    ensures var b := EmitScene(scene, c);
            && Within(b.events, 2, 7) && Ordered(b.events)
            && (b.failure.None? ==> Completes(scene, c, b.events, b.cache))
  {
    var b := EmitScene(scene, c);
    if c.integrator(scene).Ok? {
      var w := c.world(scene);
      var e := [DataAdd(Integrator, c.integrator(scene).value)] + Tagged(World, w.records);
      OpeningTrace(c.integrator(scene).value, w.records);
      if w.failure.None? {
        var rest := EmitCameraStage(scene, c);
        CameraStageTrace(scene, c);
        Chain(e, rest.events, 2, 4, 7);
        assert b == rest.(events := e + rest.events);
      } else {
        assert b.events == e;
      }
    }
  }

  /**
   * The body from the integrator on: in the required order; it succeeds
   * exactly when no collaborator raises, and then emits exactly
   * `SuccessTrace`, ending in `configure` with the geometry's cache.
   */
  lemma SceneTrace(scene: Scene, c: Collaborators)
    ensures var b := EmitScene(scene, c);
            && Within(b.events, 2, 7) && Ordered(b.events)
            && (b.failure.None? ==> Completes(scene, c, b.events, b.cache))
            && (b.failure.None? <==> Succeeds(scene, c))
            && (b.failure.None? ==> b.events == SuccessTrace(scene, c))
  {
    SceneOrder(scene, c);
    SceneSuccess(scene, c);
  }

  // ---------------------------------------------------------------------------
  // The successful body against its direct definition
  // ---------------------------------------------------------------------------

  /**
   * Lamps onwards succeed exactly when no lamp export and not the geometry
   * export raises; the trace is then each visible lamp's records, the
   * geometry exporter's records and `configure`.
   */
  lemma LightsSuccess(scene: Scene, c: Collaborators)
    ensures var b := EmitLights(scene, c);
            var lamps := VisibleLamps(scene, scene.objects, c.visible);
            && (b.failure.None? <==> LampsExport(scene, c, lamps) && c.geometry(scene, map[]).failure.None?)
            && (b.failure.None? ==>
                  b.events == LampTrace(scene, c, lamps) + Tagged(Geometry, c.geometry(scene, map[]).records) + [Configure])
  {
    var lamps := EmitLamps(scene, c, VisibleLamps(scene, scene.objects, c.visible));
    if lamps.failure.None? {
      assert EmitLights(scene, c).events == lamps.events + EmitGeometry(scene, c).events;
    }
  }

  /**
   * Cameras onwards succeed exactly when there is an active camera, no
   * camera export raises and lamps onwards succeed; the trace is then every
   * other camera's record in object order, the active camera's record, and
   * the lamps onwards.
   */
  lemma CameraStageSuccess(scene: Scene, c: Collaborators)
    ensures var b := EmitCameraStage(scene, c);
            && (b.failure.None? <==>
                  && scene.camera.Some?
                  && CamerasExport(scene, c, OtherCameras(scene.objects, scene.camera.value.name))
                  && c.camera(scene, scene.camera.value).Ok?
                  && EmitLights(scene, c).failure.None?)
            && (b.failure.None? ==>
                  b.events == CameraTrace(scene, c, OtherCameras(scene.objects, scene.camera.value.name))
                              + [DataAdd(Camera(scene.camera.value), c.camera(scene, scene.camera.value).value)]
                              + EmitLights(scene, c).events)
  {
    if scene.camera.Some? {
      ActiveCameraSuccess(scene, c, scene.camera.value);
    }
  }

  /** `CameraStageSuccess` once the active camera is known. */
  lemma ActiveCameraSuccess(scene: Scene, c: Collaborators, active: SceneObject)
    requires scene.camera == Some(active)
    ensures var b := EmitCameraStage(scene, c);
            var others := OtherCameras(scene.objects, active.name);
            && (b.failure.None? <==>
                  CamerasExport(scene, c, others) && c.camera(scene, active).Ok? && EmitLights(scene, c).failure.None?)
            && (b.failure.None? ==>
                  b.events == CameraTrace(scene, c, others) + [DataAdd(Camera(active), c.camera(scene, active).value)]
                              + EmitLights(scene, c).events)
  {
    var b := EmitCameraStage(scene, c);
    var cams := EmitCameras(scene, c, OtherCameras(scene.objects, active.name));
    if cams.failure.None? {
      var rest := EmitActiveCamera(scene, c, active);
      assert b.events == cams.events + rest.events && b.failure == rest.failure;
      if c.camera(scene, active).Ok? {
        var lights := EmitLights(scene, c);
        assert rest.events == [DataAdd(Camera(active), c.camera(scene, active).value)] + lights.events;
        assert rest.failure == lights.failure;
      } else {
        assert rest.failure.Some?;
      }
    } else {
      assert b.failure.Some?;
    }
  }

  /**
   * The body from the integrator on succeeds exactly when no collaborator
   * raises, and then emits exactly `SuccessTrace`.
   */
  lemma SceneSuccess(scene: Scene, c: Collaborators)
    ensures EmitScene(scene, c).failure.None? <==> Succeeds(scene, c)
    ensures Succeeds(scene, c) ==> EmitScene(scene, c).events == SuccessTrace(scene, c)
  {
    var b := EmitScene(scene, c);
    LightsSuccess(scene, c);
    CameraStageSuccess(scene, c);
    if c.integrator(scene).Ok? && c.world(scene).failure.None? {
      var first := [DataAdd(Integrator, c.integrator(scene).value)];
      var world := Tagged(World, c.world(scene).records);
      var rest := EmitCameraStage(scene, c);
      assert b.events == first + world + rest.events && b.failure == rest.failure;
      if rest.failure.None? {
        var active := scene.camera.value;
        Regroup(first, world, CameraTrace(scene, c, OtherCameras(scene.objects, active.name)),
                [DataAdd(Camera(active), c.camera(scene, active).value)],
                LampTrace(scene, c, VisibleLamps(scene, scene.objects, c.visible)),
                Tagged(Geometry, c.geometry(scene, map[]).records));
      }
    } else {
      assert b.failure.Some? && !Succeeds(scene, c);
    }
  }

  /** The body from the integrator on fails with exactly the error `FirstError` names. */
  lemma SceneFailure(scene: Scene, c: Collaborators)
    ensures EmitScene(scene, c).failure == FirstError(scene, c)
    ensures FirstError(scene, c).None? <==> Succeeds(scene, c)
  {
    if scene.camera.Some? {
      var cams := EmitCameras(scene, c, OtherCameras(scene.objects, scene.camera.value.name));
      var lamps := EmitLamps(scene, c, VisibleLamps(scene, scene.objects, c.visible));
    }
  }

  /** The stretches of a successful body, regrouped as `SuccessTrace` lists them. */
  lemma Regroup(first: seq<Event>, world: seq<Event>, cams: seq<Event>, active: seq<Event>, lamps: seq<Event>, geometry: seq<Event>)
    ensures first + world + (cams + active + (lamps + geometry + [Configure]))
         == first + world + cams + active + lamps + geometry + [Configure]
  {
  }

  lemma PathSetupTrace(props: ExportProperties)
    ensures var h := PathSetup(props);
            Within(h, 0, 1) && Ordered(h) && CameraObjects(h) == [] && LampRecords(h) == []
  {
    var h := PathSetup(props);
    if props.apiType == FileApi {
      var f := SetFilename(JoinPath(props.directory, props.filename));
      assert h == [f] + [ClearCache];
      assert Within([f], 0, 0) && Within([ClearCache], 1, 1);
      WithinOrdered([f], 0);
      WithinOrdered([ClearCache], 1);
      OrderedConcat([f], [ClearCache], 0, 1, 1);
    } else {
      assert h == [ClearCache];
      assert Within(h, 1, 1);
      WithinOrdered(h, 1);
    }
    Quiet(h, 0, 1);
  }

  /**
   * The `try` body's trace is in the required order, holds no reset, and on
   * success names every camera (the active one last), every visible lamp's
   * records, the geometry built from a cleared cache, and ends in `configure`.
   */
  lemma TransactionTrace(scene: Scene, props: ExportProperties, cache: Cache, c: Collaborators)
    ensures var t := Transaction(scene, props, cache, c);
            && Within(t.events, 0, 7) && Ordered(t.events) && ResetManager !in t.events
            && (t.failure.None? ==> Completes(scene, c, t.events, t.cache))
            && (t.failure.None? <==> |props.directory| > 0 && Succeeds(scene, c))
            && (t.failure.None? ==> t.events == PathSetup(props) + SuccessTrace(scene, c))
  {
    var t := Transaction(scene, props, cache, c);
    if |props.directory| > 0 {
      var body := EmitScene(scene, c);
      SceneTrace(scene, c);
      PathSetupTrace(props);
      Chain(PathSetup(props), body.events, 0, 2, 7);
    }
    assert Rank(ResetManager) == 8;
  }

  // ---------------------------------------------------------------------------
  // The call
  // ---------------------------------------------------------------------------

  /**
   * The `try`'s outcome turned into the call's outcome: on success the owned
   * manager is reset and FINISHED is answered; on an error the abort is
   * reported and the error re-raised or CANCELLED answered.
   */
  function Conclude(scene: Scene, props: ExportProperties, active: Option<Manager>, t: Attempt): (o: ExportOutcome)
    requires ResetManager !in t.events
    ensures o.created <==> active.None?
    ensures o.created ==> o.active == Some(Manager(scene.name, props.apiType))
    ensures !o.created ==> o.active == active
    ensures o.status == Finished <==> t.failure.None?
    ensures o.status == Finished ==> o.events == t.events + (if o.created then [ResetManager] else [])
    ensures o.status != Finished ==> o.events == t.events
    ensures ResetManager in o.events <==> o.status == Finished && o.created
    ensures o.status != Finished ==> (o.status.Raised? <==> scene.reRaise) && (o.status.Raised? ==> o.status.error == t.failure.value)
    ensures |o.reports| > 0 && (o.reports[|o.reports| - 1].types == ["ERROR"] <==> o.status != Finished)
    ensures |o.reports| == 2 && o.reports[0] == Report(["INFO"], "Creating Mitsuba context")
    ensures o.status == Finished ==> o.reports[1] == Report(["INFO"], "Export finished")
    ensures o.status != Finished ==> o.reports[1] == AbortReport(t.failure.value)
    ensures o.properties == t.properties && o.cache == t.cache
  {
    var created := active.None?;
    var manager := if created then Some(Manager(scene.name, props.apiType)) else active;
    var opening := Report(["INFO"], "Creating Mitsuba context");
    if t.failure.None? then
      ExportOutcome(Finished, t.events + (if created then [ResetManager] else []),
                    [opening, Report(["INFO"], "Export finished")], manager, created, t.properties, t.cache)
    else
      ExportOutcome(if scene.reRaise then Raised(t.failure.value) else Cancelled, t.events,
                    [opening, AbortReport(t.failure.value)], manager, created, t.properties, t.cache)
  }

  /**
   * `SceneExporter.export`. A None scene raises before any manager is made;
   * its handler then reads `scene.mitsuba_testing` on None, so an
   * AttributeError escapes whatever the re-raise flag. Otherwise a manager
   * is created (and owned) only when none is active; on success the pass
   * finalises and resets an owned manager; on an error it reports, then
   * re-raises or answers CANCELLED, and never resets.
   */
  function Export(scene: Option<Scene>, props: ExportProperties, active: Option<Manager>, cache: Cache, c: Collaborators): (o: ExportOutcome)
    ensures scene.None? ==>
              && o.status == Raised(NoneAttribute("mitsuba_testing"))
              && o.events == [] && o.active == active && !o.created && o.cache == cache
              && o.reports == [AbortReport(InvalidScene(props.filename))]
    ensures o.created <==> scene.Some? && active.None?
    ensures o.created ==> o.active == Some(Manager(scene.value.name, props.apiType))
    ensures !o.created ==> o.active == active
    ensures ResetManager in o.events <==> o.status == Finished && o.created
    ensures scene.Some? && o.status != Finished ==> (o.status.Raised? <==> scene.value.reRaise)
    ensures scene.Some? && |props.directory| == 0 ==> o.status != Finished && o.events == [] && o.cache == cache
    ensures |o.reports| > 0 && (o.reports[|o.reports| - 1].types == ["ERROR"] <==> o.status != Finished)
    ensures scene.Some? ==> |o.reports| == 2 && o.reports[0] == Report(["INFO"], "Creating Mitsuba context")
    ensures scene.Some? && o.status == Finished ==> o.reports[1] == Report(["INFO"], "Export finished")
    ensures scene.Some? && o.status != Finished ==>
              var t := Transaction(scene.value, props, cache, c);
              t.failure.Some? && o.reports[1] == AbortReport(t.failure.value)
    ensures scene.Some? && |props.directory| == 0 ==> o.reports[1] == AbortReport(DirectoryIndex)
  {
    if scene.None? then
      ExportOutcome(Raised(NoneAttribute("mitsuba_testing")), [], [AbortReport(InvalidScene(props.filename))],
                    active, false, props, cache)
    else
      TransactionTrace(scene.value, props, cache, c);
      Conclude(scene.value, props, active, Transaction(scene.value, props, cache, c))
  }
}

=== FILE: scene_export_properties.dfy ===
/** Properties of the export pass over its whole event trace. */
module SceneExportProperties {
  import opened Wrappers
  import opened Document
  import opened SceneExport

  // ---------------------------------------------------------------------------
  // Ordering
  // ---------------------------------------------------------------------------

  /** The trace of a pass over a scene is its transaction's trace, then possibly the reset. */
  lemma ExportEvents(scene: Scene, props: ExportProperties, active: Option<Manager>, cache: Cache, c: Collaborators)
    returns (reset: seq<Event>)
    ensures reset == [] || reset == [ResetManager]
    ensures var o := Export(Some(scene), props, active, cache, c);
            && o.events == Transaction(scene, props, cache, c).events + reset
            && (reset == [ResetManager] <==> o.created && o.status == Finished)
            && (o.status == Finished <==> Transaction(scene, props, cache, c).failure.None?)
            && o.cache == Transaction(scene, props, cache, c).cache
  {
    var o := Export(Some(scene), props, active, cache, c);
    reset := if o.status == Finished && active.None? then [ResetManager] else [];
  }

  /** Appending the reset keeps the order and every projection, and leaves `configure` just before it. */
  lemma ResetLast(t: seq<Event>, reset: seq<Event>)
    requires Ordered(t) && Within(t, 0, 7)
    requires reset == [] || reset == [ResetManager]
    ensures Ordered(t + reset) && Within(t + reset, 0, 8)
    ensures CameraObjects(t + reset) == CameraObjects(t) && LampRecords(t + reset) == LampRecords(t)
    ensures |t| > 0 ==> (t + reset)[|t + reset| - |reset| - 1] == t[|t| - 1]
  {
    if reset == [] {
      assert t + reset == t;
    } else {
      assert Within(reset, 8, 8);
      WithinOrdered(reset, 8);
      Chain(t, reset, 0, 8, 8);
      Quiet(reset, 8, 8);
    }
  }

  /**
   * The whole trace follows the required order: set_filename, cache clear,
   * integrator, world, cameras, lamps, geometry, configure, reset.
   */
  lemma ExportOrdered(scene: Option<Scene>, props: ExportProperties, active: Option<Manager>, cache: Cache, c: Collaborators)
    ensures Ordered(Export(scene, props, active, cache, c).events)
  {
    if scene.Some? {
      var reset := ExportEvents(scene.value, props, active, cache, c);
      TransactionTrace(scene.value, props, cache, c);
      ResetLast(Transaction(scene.value, props, cache, c).events, reset);
    }
  }

  /**
   * On success the camera records are every other camera in object order and
   * then the active camera, the lamp records are those of the visible lamps
   * in object order, and `configure` comes last but for an owned manager's reset.
   */
  lemma ExportFinishedTrace(scene: Option<Scene>, props: ExportProperties, active: Option<Manager>, cache: Cache, c: Collaborators)
    ensures var o := Export(scene, props, active, cache, c);
            o.status == Finished ==> scene.Some? && scene.value.camera.Some?
    ensures var o := Export(scene, props, active, cache, c);
            o.status == Finished ==>
              CameraObjects(o.events) == OtherCameras(scene.value.objects, scene.value.camera.value.name) + [scene.value.camera.value]
    ensures var o := Export(scene, props, active, cache, c);
            o.status == Finished ==>
              LampRecords(o.events) == LampOutput(scene.value, VisibleLamps(scene.value, scene.value.objects, c.visible), c)
    ensures var o := Export(scene, props, active, cache, c);
            o.status == Finished ==>
              |o.events| >= (if o.created then 2 else 1) && o.events[|o.events| - (if o.created then 2 else 1)] == Configure
    ensures var o := Export(scene, props, active, cache, c);
            o.status == Finished ==>
              && Succeeds(scene.value, c)
              && o.events == PathSetup(props) + SuccessTrace(scene.value, c) + (if o.created then [ResetManager] else [])
  {
    var o := Export(scene, props, active, cache, c);
    if scene.Some? && o.status == Finished {
      var reset := ExportEvents(scene.value, props, active, cache, c);
      var t := Transaction(scene.value, props, cache, c);
      TransactionTrace(scene.value, props, cache, c);
      assert Completes(scene.value, c, t.events, t.cache);
      ResetLast(t.events, reset);
      assert o.events == t.events + reset;
      assert |reset| == (if o.created then 1 else 0);
    }
  }

  /**
   * The pass answers FINISHED exactly when there is a scene, the output
   * directory is non-empty and no collaborator raises.
   */
  lemma ExportFinishesExactly(scene: Option<Scene>, props: ExportProperties, active: Option<Manager>, cache: Cache, c: Collaborators)
    ensures Export(scene, props, active, cache, c).status == Finished
        <==> scene.Some? && |props.directory| > 0 && Succeeds(scene.value, c)
  {
    if scene.Some? {
      var reset := ExportEvents(scene.value, props, active, cache, c);
      TransactionTrace(scene.value, props, cache, c);
    }
  }

  /**
   * Over an existing scene and a non-empty directory, the pass fails exactly
   * when a collaborator raises (or the active camera is missing), and it
   * re-raises, when asked to, the very error `FirstError` names.
   */
  lemma ExportFailsWithFirstError(scene: Scene, props: ExportProperties, active: Option<Manager>, cache: Cache, c: Collaborators)
    requires |props.directory| > 0
    ensures var o := Export(Some(scene), props, active, cache, c);
            && (o.status != Finished <==> FirstError(scene, c).Some?)
            && (o.status != Finished && scene.reRaise ==> o.status == Raised(FirstError(scene, c).value))
            && (o.status != Finished && !scene.reRaise ==> o.status == Cancelled)
  {
    SceneFailure(scene, c);
  }

  /** An empty output directory fails the pass before anything is emitted or cached. */
  lemma ExportEmptyDirectory(scene: Scene, props: ExportProperties, active: Option<Manager>, cache: Cache, c: Collaborators)
    requires |props.directory| == 0
    ensures var o := Export(Some(scene), props, active, cache, c);
            o.status != Finished && o.events == [] && o.cache == cache && o.properties == props
  {
  }

  /** Nothing in the path set-up adds a record, and it ends in the cache clear. */
  lemma ClearedBeforeAnyRecord(props: ExportProperties, rest: seq<Event>)
    ensures var s := PathSetup(props) + rest;
            forall i :: 0 <= i < |s| && s[i].DataAdd? ==> exists j :: 0 <= j < i && s[j] == ClearCache
  {
    var head := PathSetup(props);
    var s := head + rest;
    forall i | 0 <= i < |s| && s[i].DataAdd?
      ensures exists j :: 0 <= j < i && s[j] == ClearCache
    {
      assert s[|head| - 1] == ClearCache;
    }
  }

  /** The exported-materials cache is cleared before any record is added. */
  lemma CacheClearedBeforeRecords(scene: Option<Scene>, props: ExportProperties, active: Option<Manager>, cache: Cache, c: Collaborators)
    ensures var o := Export(scene, props, active, cache, c);
            forall i :: 0 <= i < |o.events| && o.events[i].DataAdd? ==>
              exists j :: 0 <= j < i && o.events[j] == ClearCache
  {
    if scene.Some? && |props.directory| > 0 {
      var reset := ExportEvents(scene.value, props, active, cache, c);
      var body := EmitScene(scene.value, c).events;
      assert Transaction(scene.value, props, cache, c).events + reset == PathSetup(props) + (body + reset);
      ClearedBeforeAnyRecord(props, body + reset);
    }
  }

  // ---------------------------------------------------------------------------
  // Cameras and lamps
  // ---------------------------------------------------------------------------

  /** What the lamp records are made of: each visible lamp's own records, lamp after lamp. */
  lemma {:induction false} LampOutputAppend(scene: Scene, a: seq<SceneObject>, b: seq<SceneObject>, c: Collaborators)
    ensures LampOutput(scene, a + b, c) == LampOutput(scene, a, c) + LampOutput(scene, b, c)
    decreases |a|
  {
    if |a| > 0 {
      assert (a + b)[0] == a[0];
      assert (a + b)[1..] == a[1..] + b;
      LampOutputAppend(scene, a[1..], b, c);
    } else {
      assert a + b == b;
    }
  }

  /** Lamp selection distributes over the object list: objects earlier in the scene come first. */
  lemma {:induction false} VisibleLampsAppend(scene: Scene, a: seq<SceneObject>, b: seq<SceneObject>, visible: (Scene, SceneObject) -> bool)
    ensures VisibleLamps(scene, a + b, visible) == VisibleLamps(scene, a, visible) + VisibleLamps(scene, b, visible)
    decreases |a|
  {
    if |a| > 0 {
      assert (a + b)[0] == a[0];
      assert (a + b)[1..] == a[1..] + b;
      VisibleLampsAppend(scene, a[1..], b, visible);
    } else {
      assert a + b == b;
    }
  }

  /** Camera selection distributes over the object list: objects earlier in the scene come first. */
  lemma {:induction false} OtherCamerasAppend(a: seq<SceneObject>, b: seq<SceneObject>, activeName: string)
    ensures OtherCameras(a + b, activeName) == OtherCameras(a, activeName) + OtherCameras(b, activeName)
    decreases |a|
  {
    if |a| > 0 {
      assert (a + b)[0] == a[0];
      assert (a + b)[1..] == a[1..] + b;
      OtherCamerasAppend(a[1..], b, activeName);
    } else {
      assert a + b == b;
    }
  }

  /** On success the final cache is what the geometry exporter built from a cleared cache. */
  lemma GeometryStartsFromClearedCache(scene: Scene, props: ExportProperties, active: Option<Manager>, cache: Cache, c: Collaborators)
    requires Export(Some(scene), props, active, cache, c).status == Finished
    ensures Export(Some(scene), props, active, cache, c).cache == c.geometry(scene, map[]).cache
  {
    var _ := ExportEvents(scene, props, active, cache, c);
    TransactionTrace(scene, props, cache, c);
  }

  // ---------------------------------------------------------------------------
  // Path, backend, cache
  // ---------------------------------------------------------------------------

  /**
   * `set_filename` is called only for the file backend, first of all, with
   * the path joined from the directory as given (before normalisation); on
   * success with the file backend it is always called.
   */
  lemma FilenameOnlyForFileBackend(scene: Option<Scene>, props: ExportProperties, active: Option<Manager>, cache: Cache, c: Collaborators)
    ensures var o := Export(scene, props, active, cache, c);
            forall i :: 0 <= i < |o.events| && o.events[i].SetFilename? ==>
              && i == 0 && props.apiType == FileApi
              && o.events[i].path == JoinPath(props.directory, props.filename)
    ensures var o := Export(scene, props, active, cache, c);
            o.status == Finished && props.apiType == FileApi ==>
              o.events[0] == SetFilename(JoinPath(props.directory, props.filename))
  {
    if scene.Some? && |props.directory| > 0 {
      var reset := ExportEvents(scene.value, props, active, cache, c);
      SceneTrace(scene.value, c);
      OnlyPathSetupSetsFilename(props, EmitScene(scene.value, c).events, reset);
    }
  }

  lemma OnlyPathSetupSetsFilename(props: ExportProperties, body: seq<Event>, reset: seq<Event>)
    requires Within(body, 2, 7)
    requires reset == [] || reset == [ResetManager]
    ensures var s := PathSetup(props) + body + reset;
            forall i :: 0 <= i < |s| && s[i].SetFilename? ==>
              && i == 0 && props.apiType == FileApi
              && s[i].path == JoinPath(props.directory, props.filename)
  {
    var head := PathSetup(props);
    var s := head + body + reset;
    forall i | |head| <= i < |s|
      ensures !s[i].SetFilename?
    {
      if i < |head| + |body| {
        assert s[i] == body[i - |head|] && body[i - |head|] in body;
      } else {
        assert s[i] == ResetManager;
      }
    }
  }

  /** After a successful set-up the directory ends in a separator and nothing else of the properties changed. */
  lemma DirectoryNormalised(scene: Scene, props: ExportProperties, active: Option<Manager>, cache: Cache, c: Collaborators)
    requires |props.directory| > 0
    ensures var o := Export(Some(scene), props, active, cache, c);
            && EndsWithSeparator(o.properties.directory)
            && o.properties.directory[..|props.directory|] == props.directory
            && |o.properties.directory| <= |props.directory| + 1
            && o.properties.filename == props.filename && o.properties.apiType == props.apiType
  {
  }

  /** Normalising an already normalised directory changes nothing. */
  lemma NormaliseIdempotent(d: string)
    requires |d| > 0
    ensures NormaliseDirectory(NormaliseDirectory(d)) == NormaliseDirectory(d)
  {
  }

  /**
   * Joining onto the raw directory agrees with appending the file name to the
   * normalised directory, except when the directory ends in a backslash (kept
   * by normalisation, but not a separator for the POSIX join).
   */
  lemma JoinAgreesWithNormalised(d: string, f: string)
    requires |d| > 0 && (|f| == 0 || f[0] != '/')
    ensures d[|d| - 1] != '\\' ==> JoinPath(d, f) == NormaliseDirectory(d) + f
    ensures d[|d| - 1] == '\\' ==> JoinPath(d, f) == d + "/" + f
  {
  }

  /**
   * Transaction isolation: once the pass reaches the cache clear, nothing it
   * does depends on what an earlier (possibly failed) export left in the cache.
   */
  lemma CacheIsolation(scene: Scene, props: ExportProperties, active: Option<Manager>, c: Collaborators, left1: Cache, left2: Cache)
    requires |props.directory| > 0
    ensures Export(Some(scene), props, active, left1, c) == Export(Some(scene), props, active, left2, c)
  {
  }

  // ---------------------------------------------------------------------------
  // Reports
  // ---------------------------------------------------------------------------

  lemma UpperIdempotent(s: string)
    ensures Upper(Upper(s)) == Upper(s)
  {
  }

  /** The severity part of a report line holds no lower-case letter. */
  lemma {:induction false} JoinUpperHasNoLowerCase(types: seq<string>)
    ensures forall i :: 0 <= i < |JoinUpper(types)| ==> !('a' <= JoinUpper(types)[i] <= 'z')
    decreases |types|
  {
    if |types| > 1 {
      JoinUpperHasNoLowerCase(types[1..]);
      var u, rest := Upper(types[0]), JoinUpper(types[1..]);
      assert JoinUpper(types) == u + "|" + rest;
      forall i | 0 <= i < |JoinUpper(types)|
        ensures !('a' <= JoinUpper(types)[i] <= 'z')
      {
        if i < |u| {
          assert JoinUpper(types)[i] == u[i];
        } else if i > |u| {
          assert JoinUpper(types)[i] == rest[i - |u| - 1];
        }
      }
    }
  }

  /** Severity names already in upper case are printed as they are. */
  lemma UpperKeepsUpperCase(s: string)
    requires forall i :: 0 <= i < |s| ==> !('a' <= s[i] <= 'z')
    ensures Upper(s) == s
  {
  }

  /** A single severity already in upper case is printed as it is. */
  lemma SingleSeverity(t: string)
    requires forall i :: 0 <= i < |t| ==> !('a' <= t[i] <= 'z')
    ensures JoinUpper([t]) == t
  {
    UpperKeepsUpperCase(t);
  }

  /** An INFO report is printed as `INFO: ` and its message. */
  lemma InfoLine(m: string)
    ensures FormatReport(Report(["INFO"], m)) == "INFO: " + m
  {
    SingleSeverity("INFO");
  }

  /** The handler's report is printed as `ERROR: Export aborted: ` and the error's text. */
  lemma AbortLine(e: ExportError)
    ensures FormatReport(AbortReport(e)) == "ERROR: Export aborted: " + ErrorText(e)
  {
    var r := AbortReport(e);
    assert r.message == r.message[..16] + r.message[16..];
    SingleSeverity("ERROR");
    assert FormatReport(r) == "ERROR" + ": " + ("Export aborted: " + ErrorText(e));
    AbortPrefix(ErrorText(e));
  }

  lemma AbortPrefix(t: string)
    ensures "ERROR" + ": " + ("Export aborted: " + t) == "ERROR: Export aborted: " + t
  {
    assert "ERROR" + ": " == "ERROR: ";
  }

  /**
   * The lines a pass over an existing scene logs when it finishes: the
   * context line, then the finished line.
   */
  lemma FinishedReportLine(scene: Scene, props: ExportProperties, active: Option<Manager>, cache: Cache, c: Collaborators)
    ensures var o := Export(Some(scene), props, active, cache, c);
            o.status == Finished ==>
              && |o.reports| == 2
              && FormatReport(o.reports[0]) == "INFO: " + "Creating Mitsuba context"
              && FormatReport(o.reports[1]) == "INFO: " + "Export finished"
  {
    var o := Export(Some(scene), props, active, cache, c);
    if o.status == Finished {
      assert o.reports[0] == Report(["INFO"], "Creating Mitsuba context");
      assert o.reports[1] == Report(["INFO"], "Export finished");
      InfoLine("Creating Mitsuba context");
      InfoLine("Export finished");
    }
  }

  /**
   * The lines a pass over an existing scene logs when it aborts: the context
   * line, then `ERROR: Export aborted: ` and the text of the transaction's error.
   */
  lemma AbortedReportLine(scene: Scene, props: ExportProperties, active: Option<Manager>, cache: Cache, c: Collaborators)
    ensures var o := Export(Some(scene), props, active, cache, c);
            var t := Transaction(scene, props, cache, c);
            o.status != Finished ==>
              && |o.reports| == 2 && t.failure.Some?
              && FormatReport(o.reports[0]) == "INFO: " + "Creating Mitsuba context"
              && FormatReport(o.reports[1]) == "ERROR: Export aborted: " + ErrorText(t.failure.value)
    ensures var o := Export(Some(scene), props, active, cache, c);
            o.status != Finished && |props.directory| > 0 ==>
              FirstError(scene, c).Some? && FormatReport(o.reports[1]) == "ERROR: Export aborted: " + ErrorText(FirstError(scene, c).value)
  {
    var o := Export(Some(scene), props, active, cache, c);
    if o.status != Finished {
      var t := Transaction(scene, props, cache, c);
      assert o.reports[0] == Report(["INFO"], "Creating Mitsuba context");
      assert o.reports[1] == AbortReport(t.failure.value);
      InfoLine("Creating Mitsuba context");
      AbortLine(t.failure.value);
      SceneFailure(scene, c);
    }
  }

  /** An empty output directory is reported as the IndexError of `directory[-1]`. */
  lemma EmptyDirectoryReportLine(scene: Scene, props: ExportProperties, active: Option<Manager>, cache: Cache, c: Collaborators)
    requires |props.directory| == 0
    ensures var o := Export(Some(scene), props, active, cache, c);
            |o.reports| == 2 && FormatReport(o.reports[1]) == "ERROR: Export aborted: " + "string index out of range"
  {
    var o := Export(Some(scene), props, active, cache, c);
    assert o.reports[1] == AbortReport(DirectoryIndex);
    AbortLine(DirectoryIndex);
    assert ErrorText(DirectoryIndex) == "string index out of range";
  }

  /** A None scene logs only the abort line naming the output file, and no context line. */
  lemma NoneSceneReportLine(props: ExportProperties, active: Option<Manager>, cache: Cache, c: Collaborators)
    ensures var o := Export(None, props, active, cache, c);
            o.reports == [AbortReport(InvalidScene(props.filename))]
            && FormatReport(o.reports[0]) == "ERROR: Export aborted: " + ("Scene is not valid for export to " + props.filename)
  {
    var o := Export(None, props, active, cache, c);
    assert o.reports[0] == AbortReport(InvalidScene(props.filename));
    AbortLine(InvalidScene(props.filename));
    assert ErrorText(InvalidScene(props.filename)) == "Scene is not valid for export to " + props.filename;
  }

  /** Joining the severities of two non-empty groups puts one bar between the two joins. */
  lemma {:induction false} JoinUpperAppend(a: seq<string>, b: seq<string>)
    requires |a| > 0 && |b| > 0
    ensures JoinUpper(a + b) == JoinUpper(a) + "|" + JoinUpper(b)
    decreases |a|
  {
    if |a| == 1 {
      assert (a + b)[1..] == b;
    } else {
      assert (a + b)[1..] == a[1..] + b;
      JoinUpperAppend(a[1..], b);
    }
  }

  /** Several severities are upper-cased and joined by a bar. */
  lemma CombinedReportLine()
    ensures FormatReport(Report(["info", "error"], "x")) == "INFO|ERROR: x"
  {
    var u1, u2 := Upper("info"), Upper("error");
    assert u1[0] == 'I' && u1[1] == 'N' && u1[2] == 'F' && u1[3] == 'O';
    assert u1 == "INFO";
    assert u2[0] == 'E' && u2[1] == 'R' && u2[2] == 'R' && u2[3] == 'O' && u2[4] == 'R';
    assert u2 == "ERROR";
    assert ["info", "error"][1..] == ["error"];
    assert JoinUpper(["info", "error"]) == "INFO|ERROR";
  }
}

=== FILE: world.dfy ===
/**
 * The pure helpers of the world and medium property groups: merging
 * visibility tables, appending visibility conditions to the attributes of a
 * texture parameter, the world-medium attribute pair, and the parameter set
 * a medium contributes to the renderer.
 */
module World {
  import opened Wrappers
  import opened Document

  // ---------------------------------------------------------------------------
  // Visibility tables
  // ---------------------------------------------------------------------------

  /** A visibility table: attribute name to the conditions under which it is shown. */
  type Visibility = map<string, map<string, Value>>

  /**
   * `dict_merge`: a right-biased union of the arguments, folded left to
   * right. Every key of any argument is present, bound to the value of the
   * last argument that holds it. Since maps are values, the arguments are
   * never altered (`dict_merge` deep-copies them for the same reason).
   */
  function DictMerge<K(!new), V>(args: seq<map<K, V>>): (r: map<K, V>)
    ensures forall k :: k in r <==> exists i :: 0 <= i < |args| && k in args[i]
    ensures forall i, k :: 0 <= i < |args| && k in args[i] && (forall j :: i < j < |args| ==> k !in args[j]) ==>
              k in r && r[k] == args[i][k]
  {
    if |args| == 0 then map[]
    else
      var prev := DictMerge(args[..|args| - 1]);
      MergeLast(args, prev);
      prev + args[|args| - 1]
  }

  /** One more argument: if `prev` merges all but the last argument, `prev + last` merges them all. */
  lemma MergeLast<K(!new), V>(args: seq<map<K, V>>, prev: map<K, V>)
    requires |args| > 0
    requires var front := args[..|args| - 1];
             forall k :: k in prev <==> exists i :: 0 <= i < |front| && k in front[i]
    requires var front := args[..|args| - 1];
             forall i, k :: 0 <= i < |front| && k in front[i] && (forall j :: i < j < |front| ==> k !in front[j]) ==>
               k in prev && prev[k] == front[i][k]
    ensures var r := prev + args[|args| - 1];
            forall k :: k in r <==> exists i :: 0 <= i < |args| && k in args[i]
    ensures var r := prev + args[|args| - 1];
            forall i, k :: 0 <= i < |args| && k in args[i] && (forall j :: i < j < |args| ==> k !in args[j]) ==>
              k in r && r[k] == args[i][k]
  {
    var front, last := args[..|args| - 1], args[|args| - 1];
    var r := prev + last;
    forall k | k in r
      ensures exists i :: 0 <= i < |args| && k in args[i]
    {
      if k !in last {
        var i :| 0 <= i < |front| && k in front[i];
        assert args[i] == front[i];
      }
    }
    forall i, k | 0 <= i < |args| && k in args[i] && (forall j :: i < j < |args| ==> k !in args[j])
      ensures k in r && r[k] == args[i][k]
    {
      if i < |front| {
        assert args[i] == front[i];
        forall j | i < j < |front|
          ensures k !in front[j]
        {
          assert args[j] == front[j];
        }
      }
    }
  }

  /** One entry of a texture parameter's property list; only its `attr`, if any, matters here. */
  datatype PropEntry = PropEntry(attr: Option<string>)

  /** The attribute names of a property list. */
  function AttrsOf(props: seq<PropEntry>): set<string>
  {
    set p | p in props && p.attr.Some? :: p.attr.value
  }

  /** The conditions currently recorded for `a`, none if it has no entry yet. */
  function Conditions(vis: Visibility, a: string): map<string, Value>
  {
    if a in vis then vis[a] else map[]
  }

  /**
   * `texture_append_visibility`: for every property that has an `attr`, its
   * table entry is created if missing and every appended condition is set
   * in it, overriding an existing condition of the same name. Properties
   * without an `attr` are skipped and no other entry changes.
   */
  function TextureAppendVisibility(vis: Visibility, props: seq<PropEntry>, append: map<string, Value>): (r: Visibility)
    ensures r.Keys == vis.Keys + AttrsOf(props)
    ensures forall a :: a in AttrsOf(props) ==> r[a] == Conditions(vis, a) + append
    ensures forall a :: a in vis && a !in AttrsOf(props) ==> r[a] == vis[a]
    decreases |props|
  {
    if |props| == 0 then vis
    else
      var next := match props[0].attr
        case None => vis
        case Some(a) => vis[a := Conditions(vis, a) + append];
      var r := TextureAppendVisibility(next, props[1..], append);
      AppendFirst(vis, props, append, next, r);
      r
  }

  /** The first property's step, followed by the rest, is the whole list's effect. */
  lemma AppendFirst(vis: Visibility, props: seq<PropEntry>, append: map<string, Value>, next: Visibility, r: Visibility)
    requires |props| > 0
    requires props[0].attr.None? ==> next == vis
    requires props[0].attr.Some? ==> next == vis[props[0].attr.value := Conditions(vis, props[0].attr.value) + append]
    requires r.Keys == next.Keys + AttrsOf(props[1..])
    requires forall a :: a in AttrsOf(props[1..]) ==> r[a] == Conditions(next, a) + append
    requires forall a :: a in next && a !in AttrsOf(props[1..]) ==> r[a] == next[a]
    ensures r.Keys == vis.Keys + AttrsOf(props)
    ensures forall a :: a in AttrsOf(props) ==> r[a] == Conditions(vis, a) + append
    ensures forall a :: a in vis && a !in AttrsOf(props) ==> r[a] == vis[a]
  {
    AttrsOfFirst(props);
    var rest := AttrsOf(props[1..]);
    forall a | a in AttrsOf(props)
      ensures r[a] == Conditions(vis, a) + append
    {
      if props[0].attr == Some(a) {
        if a in rest {
          AppendTwice(Conditions(vis, a), append);
        }
      } else {
        assert a in rest && Conditions(next, a) == Conditions(vis, a);
      }
    }
  }

  /** The attribute names of a list are those of its head and of its tail. */
  lemma AttrsOfFirst(props: seq<PropEntry>)
    requires |props| > 0
    ensures AttrsOf(props) == (if props[0].attr.Some? then {props[0].attr.value} else {}) + AttrsOf(props[1..])
  {
    assert forall p :: p in props <==> p == props[0] || p in props[1..];
  }

  /** Setting the same conditions twice is setting them once. */
  lemma AppendTwice(m: map<string, Value>, append: map<string, Value>)
    ensures m + append + append == m + append
  {
  }

  // ---------------------------------------------------------------------------
  // The world-medium attribute pair
  // ---------------------------------------------------------------------------

  /** Where a search property draws its candidates from. */
  datatype SearchSource = SceneMedia        // the scene's medium collection
  /** Which property group a search property writes its choice into. */
  datatype SearchTarget = WorldSettings     // the scene's world settings

  /** The declarative property definitions the medium helper produces. */
  datatype PropDef =
    | StringProp(attr: string, name: string, description: string, saveInPreset: bool)
    | PropSearch(attr: string, src: SearchSource, srcAttr: string, trg: SearchTarget, trgAttr: string, name: string)

  /** The attribute that stores the chosen medium's name. */
  function MediumAttr(attr: string): (m: string)
    ensures |m| == |attr| + 7 && m[..|attr|] == attr
  {
    attr + "_medium"
  }

  /**
   * `WorldMediumParameter`: a string property holding the medium's name, then
   * a search over the scene's media that writes the chosen name into that
   * string property of the world settings.
   */
  function WorldMediumParameter(attr: string, name: string): (defs: seq<PropDef>)
    ensures |defs| == 2 && defs[0].StringProp? && defs[1].PropSearch?
    ensures defs[0].attr == defs[0].name == MediumAttr(attr) && defs[0].saveInPreset
    ensures defs[0].description == attr + " medium; blank means vacuum"
    ensures defs[1].attr == attr && defs[1].name == name
    ensures defs[1].src == SceneMedia && defs[1].srcAttr == "media"
    ensures defs[1].trg == WorldSettings && defs[1].trgAttr == defs[0].attr
  {
    [ StringProp(MediumAttr(attr), MediumAttr(attr), attr + " medium; blank means vacuum", true),
      PropSearch(attr, SceneMedia, "media", WorldSettings, MediumAttr(attr), name) ]
  }

  /** The attribute names a list of definitions declares. */
  function DeclaredAttrs(defs: seq<PropDef>): set<string>
  {
    set d | d in defs :: d.attr
  }

  // ---------------------------------------------------------------------------
  // Medium parameter set
  // ---------------------------------------------------------------------------

  /** A colour-or-texture parameter of the medium (its attribute name and default colour). */
  datatype ColorTextureParameter = ColorTextureParameter(attr: string, title: string, defaultColor: (real, real, real))

  const ScatteringCoefficient := ColorTextureParameter("sigmaS", "Scattering Coefficient", (0.8, 0.8, 0.8))
  const AbsorptionCoefficient := ColorTextureParameter("sigmaA", "Absorption Coefficient", (0.0, 0.0, 0.0))
  const ExtinctionCoefficient := ColorTextureParameter("sigmaT", "Extinction Coefficient", (0.8, 0.8, 0.8))
  const Albedo := ColorTextureParameter("albedo", "Albedo", (0.01, 0.01, 0.01))

  /** One named entry of a renderer parameter set. */
  datatype Param = Param(name: string, value: Value)

  /** The medium settings `get_paramset` reads. */
  datatype MediumData = MediumData(material: string, useAlbSigmaT: bool, scale: real)

  /** What `get_paramset` adds before the scale: the preset name, or one of the two coefficient pairs. */
  function Selection(m: MediumData, texture: ColorTextureParameter -> seq<Param>): seq<Param>
  {
    if m.material != "" then [Param("material", Str(m.material))]
    else if m.useAlbSigmaT then texture(ExtinctionCoefficient) + texture(Albedo)
    else texture(AbsorptionCoefficient) + texture(ScatteringCoefficient)
  }

  /**
   * `mitsuba_medium_data.get_paramset`. An empty preset name selects the
   * coefficients: absorption then scattering, or extinction then albedo
   * when the albedo/extinction switch is on; a preset name is emitted
   * alone instead. The density scale always comes last. `texture` stands
   * for each colour-texture parameter's own parameter set for this medium.
   */
  function MediumParamset(m: MediumData, texture: ColorTextureParameter -> seq<Param>): (ps: seq<Param>)
    ensures |ps| > 0 && ps[|ps| - 1] == Param("scale", Num(m.scale))
    ensures m.material != "" ==> ps[..|ps| - 1] == [Param("material", Str(m.material))]
    ensures m.material == "" && !m.useAlbSigmaT ==>
              ps[..|ps| - 1] == texture(AbsorptionCoefficient) + texture(ScatteringCoefficient)
    ensures m.material == "" && m.useAlbSigmaT ==>
              ps[..|ps| - 1] == texture(ExtinctionCoefficient) + texture(Albedo)
  {
    var chosen := Selection(m, texture);
    var ps := chosen + [Param("scale", Num(m.scale))];
    assert ps[..|ps| - 1] == chosen;
    ps
  }
}

=== FILE: world_properties.dfy ===
/** Properties relating the world and medium helpers across calls. */
module WorldProperties {
  import opened Document
  import opened World

  // ---------------------------------------------------------------------------
  // dict_merge
  // ---------------------------------------------------------------------------

  /** Merging a concatenation of argument lists is merging each list, the later one winning. */
  lemma {:induction false} DictMergeAppend<K(!new), V>(a: seq<map<K, V>>, b: seq<map<K, V>>)
    ensures DictMerge(a + b) == DictMerge(a) + DictMerge(b)
    decreases |b|
  {
    if |b| == 0 {
      assert a + b == a;
      assert DictMerge(a) + map[] == DictMerge(a);
    } else {
      var front := b[..|b| - 1];
      var last := b[|b| - 1];
      assert (a + b)[..|a + b| - 1] == a + front;
      assert (a + b)[|a + b| - 1] == last;
      DictMergeAppend(a, front);
      assert DictMerge(a + b) == DictMerge(a + front) + last;
      assert DictMerge(b) == DictMerge(front) + last;
      UnionAssociative(DictMerge(a), DictMerge(front), last);
    }
  }

  lemma UnionAssociative<K, V>(x: map<K, V>, y: map<K, V>, z: map<K, V>)
    ensures x + y + z == x + (y + z)
  {
  }

  /** A single argument is returned as it is. */
  lemma DictMergeSingle<K(!new), V>(m: map<K, V>)
    ensures DictMerge([m]) == m
  {
    assert [m][..0] == [];
  }

  // ---------------------------------------------------------------------------
  // texture_append_visibility
  // ---------------------------------------------------------------------------

  /** Appending the same conditions for the same properties twice changes nothing more. */
  lemma AppendVisibilityIdempotent(vis: Visibility, props: seq<PropEntry>, append: map<string, Value>)
    ensures var once := TextureAppendVisibility(vis, props, append);
            TextureAppendVisibility(once, props, append) == once
  {
    var once := TextureAppendVisibility(vis, props, append);
    var twice := TextureAppendVisibility(once, props, append);
    forall a | a in twice
      ensures a in once && twice[a] == once[a]
    {
      if a in AttrsOf(props) {
        AppendTwice(Conditions(vis, a), append);
      }
    }
    SameTable(twice, once);
  }

  /** Two tables with the same entries are the same table. */
  lemma SameTable(l: Visibility, r: Visibility)
    requires l.Keys == r.Keys
    requires forall a :: a in l ==> l[a] == r[a]
    ensures l == r
  {
  }

  /**
   * Only the set of attribute names matters: the order of the properties,
   * repeated names and properties without an `attr` make no difference.
   */
  lemma AppendVisibilityDependsOnlyOnAttrs(vis: Visibility, p1: seq<PropEntry>, p2: seq<PropEntry>, append: map<string, Value>)
    requires AttrsOf(p1) == AttrsOf(p2)
    ensures TextureAppendVisibility(vis, p1, append) == TextureAppendVisibility(vis, p2, append)
  {
    var l, r := TextureAppendVisibility(vis, p1, append), TextureAppendVisibility(vis, p2, append);
    SameTable(l, r);
  }

  /**
   * Appending to two texture parameters with no attribute in common gives
   * the same table in either order, as the four coefficient tables of the
   * medium settings are built.
   */
  lemma AppendVisibilityCommutes(vis: Visibility, p1: seq<PropEntry>, x: map<string, Value>, p2: seq<PropEntry>, y: map<string, Value>)
    requires AttrsOf(p1) !! AttrsOf(p2)
    ensures TextureAppendVisibility(TextureAppendVisibility(vis, p1, x), p2, y)
         == TextureAppendVisibility(TextureAppendVisibility(vis, p2, y), p1, x)
  {
    var v1, v2 := TextureAppendVisibility(vis, p1, x), TextureAppendVisibility(vis, p2, y);
    var l, r := TextureAppendVisibility(v1, p2, y), TextureAppendVisibility(v2, p1, x);
    forall a | a in l
      ensures l[a] == r[a]
    {
      if a in AttrsOf(p1) {
        assert a !in AttrsOf(p2);
        assert l[a] == v1[a] == Conditions(vis, a) + x;
      } else if a in AttrsOf(p2) {
        assert r[a] == v2[a] == Conditions(vis, a) + y;
      }
    }
    SameTable(l, r);
  }

  // ---------------------------------------------------------------------------
  // WorldMediumParameter
  // ---------------------------------------------------------------------------

  lemma SuffixCancels(a: string, b: string, s: string)
    requires a + s == b + s
    ensures a == b
  {
    assert |a| == |b|;
    assert a == (a + s)[..|a|];
    assert b == (b + s)[..|b|];
  }

  /** The pair declares two different attributes: the name store and the search. */
  lemma MediumPairDistinct(attr: string, name: string)
    ensures var defs := WorldMediumParameter(attr, name);
            defs[0].attr != defs[1].attr && DeclaredAttrs(defs) == {attr, MediumAttr(attr)}
  {
    var defs := WorldMediumParameter(attr, name);
    assert |MediumAttr(attr)| != |attr|;
    assert defs[0] in defs && defs[1] in defs;
    assert forall d :: d in defs ==> d == defs[0] || d == defs[1];
  }

  /**
   * Two medium pairs declare disjoint attributes exactly when neither base
   * name is the other or the other's name store.
   */
  lemma MediumPairsDisjoint(a: string, an: string, b: string, bn: string)
    ensures DeclaredAttrs(WorldMediumParameter(a, an)) !! DeclaredAttrs(WorldMediumParameter(b, bn))
        <==> a != b && a != MediumAttr(b) && b != MediumAttr(a)
  {
    MediumPairDistinct(a, an);
    MediumPairDistinct(b, bn);
    if MediumAttr(a) == MediumAttr(b) {
      SuffixCancels(a, b, "_medium");
    }
  }

  /** The world settings declare four distinct medium attributes, none equal to the preview-size attribute. */
  lemma WorldMediumAttrsDistinct()
    ensures var interior := DeclaredAttrs(WorldMediumParameter("default_interior", "Default Interior"));
            var exterior := DeclaredAttrs(WorldMediumParameter("default_exterior", "Default Exterior"));
            && interior !! exterior
            && "preview_object_size" !in interior + exterior
            && |interior + exterior| == 4
  {
    var a, b := "default_interior", "default_exterior";
    MediumPairDistinct(a, "Default Interior");
    MediumPairDistinct(b, "Default Exterior");
    assert a[8] != b[8];
    assert |MediumAttr(a)| != |b| && |MediumAttr(b)| != |a|;
    MediumPairsDisjoint(a, "Default Interior", b, "Default Exterior");
    assert "preview_object_size"[0] != a[0];
    assert MediumAttr(a)[0] == 'd' && MediumAttr(b)[0] == 'd';
  }

  // ---------------------------------------------------------------------------
  // get_paramset
  // ---------------------------------------------------------------------------

  predicate HasPrefix(s: string, p: string)
  {
    |p| <= |s| && s[..|p|] == p
  }

  /** Each colour-texture parameter names its entries after its own attribute. */
  ghost predicate WellNamed(texture: ColorTextureParameter -> seq<Param>)
  {
    forall t, q :: q in texture(t) ==> HasPrefix(q.name, t.attr)
  }

  /** Some entry of `ps` is named after coefficient `t`. */
  ghost predicate Mentions(ps: seq<Param>, t: ColorTextureParameter)
  {
    exists q :: q in ps && HasPrefix(q.name, t.attr)
  }

  lemma PrefixesClash(s: string, p: string, q: string)
    requires HasPrefix(s, p) && HasPrefix(s, q) && |p| == |q|
    ensures p == q
  {
    assert p == s[..|p|] && q == s[..|q|];
  }

  /** Neither the scale nor the preset entry is named after a coefficient. */
  lemma NotCoefficientName(name: string, t: ColorTextureParameter)
    requires name == "scale" || name == "material"
    requires t in [AbsorptionCoefficient, ScatteringCoefficient, ExtinctionCoefficient, Albedo]
    ensures !HasPrefix(name, t.attr)
  {
    if |t.attr| <= |name| {
      assert name[1] != t.attr[1];
    }
  }

  /**
   * A preset emits no coefficient; otherwise only the selected pair of
   * coefficients appears: absorption and scattering, or extinction and albedo.
   */
  lemma ParamsetMentionsOnlySelected(m: MediumData, texture: ColorTextureParameter -> seq<Param>)
    requires WellNamed(texture)
    ensures var ps := MediumParamset(m, texture);
            && (m.material != "" ==>
                  !Mentions(ps, AbsorptionCoefficient) && !Mentions(ps, ScatteringCoefficient)
                  && !Mentions(ps, ExtinctionCoefficient) && !Mentions(ps, Albedo))
            && (m.material == "" && !m.useAlbSigmaT ==> !Mentions(ps, ExtinctionCoefficient) && !Mentions(ps, Albedo))
            && (m.material == "" && m.useAlbSigmaT ==> !Mentions(ps, AbsorptionCoefficient) && !Mentions(ps, ScatteringCoefficient))
  {
    var ps := MediumParamset(m, texture);
    var used := if m.useAlbSigmaT then [ExtinctionCoefficient, Albedo] else [AbsorptionCoefficient, ScatteringCoefficient];
    var unused := if m.material != "" then [AbsorptionCoefficient, ScatteringCoefficient, ExtinctionCoefficient, Albedo]
                  else if m.useAlbSigmaT then [AbsorptionCoefficient, ScatteringCoefficient]
                  else [ExtinctionCoefficient, Albedo];
    forall q, t | q in ps && t in unused
      ensures !HasPrefix(q.name, t.attr)
    {
      assert ps == ps[..|ps| - 1] + [ps[|ps| - 1]];
      if q == ps[|ps| - 1] {
        NotCoefficientName(q.name, t);
      } else {
        assert q in ps[..|ps| - 1];
        if m.material != "" {
          NotCoefficientName(q.name, t);
        } else {
          var u :| u in used && q in texture(u);
          if HasPrefix(q.name, t.attr) {
            PrefixesClash(q.name, u.attr, t.attr);
          }
        }
      }
    }
  }

  /** With a preset selected, the coefficient switch and the texture parameters play no part. */
  lemma PresetIgnoresCoefficients(m: MediumData, useAlbSigmaT: bool, t1: ColorTextureParameter -> seq<Param>, t2: ColorTextureParameter -> seq<Param>)
    requires m.material != ""
    ensures MediumParamset(m, t1) == MediumParamset(m.(useAlbSigmaT := useAlbSigmaT), t2)
  {
    var p1 := MediumParamset(m, t1);
    var p2 := MediumParamset(m.(useAlbSigmaT := useAlbSigmaT), t2);
    assert p1 == p1[..|p1| - 1] + [p1[|p1| - 1]];
    assert p2 == p2[..|p2| - 1] + [p2[|p2| - 1]];
  }
}

=== FILE: wrappers.dfy ===
/** Failure-compatible wrappers shared by the whole model. */
module Wrappers {

  /** A value that may be absent (Python's `None`). */
  datatype Option<+T> = None | Some(value: T)

  /** Either a value or the error a Python `raise` would have carried. */
  datatype Result<+T, +E> = Ok(value: T) | Err(error: E)
}
